=== FILE: README.md ===
# Sales enrichment model

A Dafny model of the enrichment stage of `src/recoleccion.py`. That stage
reads weekly sales records. Each record carries an ISO year (`Anio`), an ISO
week (`Semana`), unit sales, sales value, price and a socioeconomic level.
The stage produces an enriched table with these changes:

- The sales columns are cleaned. A zero counts as missing. A missing price or
  unit count is filled with the column mean. The sales value is recomputed as
  units times price.
- Three calendar columns are added for each row:
  - the Monday of the row's ISO week;
  - the season of that Monday (`get_season`);
  - a holiday flag that is 1 when some day of that week is a public holiday
    (`check_week_for_holiday`).
- Each row gets an `EventoEspecial_Venta_piezas` flag. It is 1 when the unit
  count lies strictly above the upper Tukey fence `Q3 + 1.5 * (Q3 - Q1)`
  (`label_special_events`).
- The food-spending percentage of the row's socioeconomic level is merged in
  with a left join on `Nivel Socioeconomico` = `NSE`. The `NSE` key column is
  then dropped (`add_food_spending_percentage`).

Dates are `datetime.date` ordinals, with 0001-01-01 as day 1. So comparing
dates and adding days are integer operations. The ISO week date follows
section 4.1.4 of ISO 8601:2004. Week 1 is the Monday-to-Sunday week that
contains 4 January. The conversion functions mirror the standard library's
`_isoweek1monday`, `isocalendar()` and `fromisocalendar()`.

The holiday service is a function parameter, `lookup: int -> Response`. It
gives the HTTP status and the `response.holidays` list for one date. Tables
are `Frame`s: an ordered list of distinct column names, plus rows that map
every column to a cell. A cell is a number, text, a date or missing. Numbers
are exact `real`s.

Modules, in dependency order:

- `Results`: errors, `Option` and `Result`.
- `Calendar`: ordinals, years and ISO week dates.
- `Weeks`: the `strptime("%G %V %u")` Monday and `week_dates`.
- `Seasons`: `get_season`.
- `Holidays`: `check_week_for_holiday`.
- `Frames`: tables, columns and column writes.
- `Cleaning`: the cleaning block of `main`.
- `Quantiles`: sorting and the linear-interpolation quantile.
- `Events`: `label_special_events`.
- `Join`: the left merge and `add_food_spending_percentage`.
- `Pipeline`: `process_row`, the `apply` over all rows, and the composed
  enrichment steps of `main`.

`get_season` is modelled as written. Its winter test compares the date
against 21 December of the date's *own* year. So winter covers only 21–31
December, and every date from 1 January to 19 March falls through to
`"Sin estacion"`. `Seasons.SeasonBands` proves this band by band. The upper
bound of the same test, `date(year + 1, 3, 19)` (line 20), shows that winter
was meant to run across the new year into March. `Seasons.IntendedSeason`
states those intended bands and is proved against the code's (see
"## Findings"). The enrichment pipeline keeps the labels the code as written
produces, since those are what the enriched dataset holds.

## Model

| member | source | states |
|---|---|---|
| Calendar.IsoCalendarOfWeekDay | src/recoleccion.py:34 | every valid ISO week date (year, week 1..weeks of that year, weekday 1..7) is given back by `isocalendar()` of the day `fromisocalendar` builds from it |
| Calendar.IsoCalendarValid | src/recoleccion.py:34 | the other direction of the round trip: the ISO week date of any day has a week the ISO year has and a weekday 1..7, and maps back to that day |
| Calendar.WeeksInYearSpan | src/recoleccion.py:34 | week 1 of the next ISO year starts exactly 52 or 53 whole weeks (as `WeeksInYear` says) after week 1 of this one |
| Weeks.WeekStart | src/recoleccion.py:34 | parsing `"{anio} {semana} 1"` with `%G %V %u` succeeds exactly when the year has four digits and the week is between 1 and the number of weeks of that ISO year; otherwise it fails as a bad year, a bad week or a week out of range |
| Weeks.WeekStartIsoWeek | src/recoleccion.py:34 | the parsed date is a Monday whose ISO year and week are the ones parsed |
| Weeks.WeekStartInRange | src/recoleccion.py:34 | every parsed Monday is a representable date at least three days before 9999-12-31 |
| Weeks.NextWeekStart | src/recoleccion.py:34 | the Monday of week w+1 is exactly 7 days after the Monday of week w |
| Weeks.NextYearWeekStart | src/recoleccion.py:34 | week 1 of the next ISO year starts 7 days after the last week of this one |
| Weeks.WeekDates | src/recoleccion.py:36 | `week_dates` has exactly 7 elements, the Monday and the six consecutive days after it; it fails exactly when the week does not parse or a day would pass 9999-12-31 |
| Weeks.WeekDatesInWeek | src/recoleccion.py:36 | the i-th of the seven dates lies in the requested ISO week on weekday i+1, Monday to Sunday |
| Seasons.BandTests | src/recoleccion.py:20-27 | each of the source's ordinal comparisons on a date of year y is equivalent to a (month, day) comparison, and the winter upper bound 19 March of y+1 always holds |
| Seasons.GetSeasonOfDate | src/recoleccion.py:18-28 | `get_season` of any date agrees with the fixed (month, day) bands; from 21 December 9999 on, building 19 March 10000 raises |
| Seasons.SeasonBands | src/recoleccion.py:18-28 | both directions for every label: Primavera exactly on 20 Mar–20 Jun, Verano on 21 Jun–22 Sep, Otoño on 23 Sep–20 Dec, Invierno on 21–31 Dec, and "Sin estacion" exactly on 1 Jan–19 Mar, so each boundary date belongs to the later season |
| Seasons.IntendedSeasonOfDate | src/recoleccion.py:18-28 | under the intended bands every date has a season, winter is exactly 21 Dec–19 Mar, and from 20 March to the end of the year the label is the one `get_season` gives, wherever `get_season` does not raise |
| Seasons.MidJanuaryHasNoSeason | src/recoleccion.py:20 | 15 January 2023 gets "Sin estacion" from `get_season` as written, but is winter under the intended bands |
| Holidays.HolidayFlag | src/recoleccion.py:39-53 | the flag is 0 or 1, and it is 1 exactly when some date gets status 200 with a non-empty holidays list |
| Holidays.CheckWeekForHoliday | src/recoleccion.py:32-53 | the loop returns the flag of the seven week dates; it queries a prefix of the week in order; every queried date but the last reports no holiday; the result is 1 exactly when the last queried date reports one; on 0 all seven were queried; a week that does not parse fails before any query |
| Holidays.HolidayFlagMonotone | src/recoleccion.py:49-53 | a service that reports a superset of holidays never lowers the flag |
| Cleaning.ZeroToMissing | src/recoleccion.py:103-105 | `replace(0, pd.NA)`: no zero remains, zeros become missing and every other cell is unchanged |
| Cleaning.Mean | src/recoleccion.py:110 | the mean is defined exactly when the column holds a number |
| Cleaning.MeanWithinRange | src/recoleccion.py:110 | the mean of the non-missing values lies between any lower and upper bound of those values |
| Cleaning.MeanAfterFill | src/recoleccion.py:109-114 | filling the missing cells with the mean leaves the mean unchanged |
| Cleaning.CleanColumnSpec | src/recoleccion.py:103-114 | on one column: non-zero numbers are kept; every zero or missing cell becomes the mean of the non-zero numbers; if there is no such number they all stay missing; the result is numeric |
| Cleaning.CleanColumnIdempotent | src/recoleccion.py:103-114 | cleaning a cleaned column changes nothing |
| Cleaning.Clean | src/recoleccion.py:103-118 | the cleaning block succeeds exactly when the three sales columns exist and price and units hold only numbers or missing cells; otherwise it fails naming a missing column, or, all three present, naming `Precio` when its mean fails and `Venta_piezas` only when `Precio` is numeric |
| Cleaning.CleanSalesValue | src/recoleccion.py:117-118 | after cleaning, every row has `Venta_valor == Venta_piezas * Precio` |
| Cleaning.CleanKeeps | src/recoleccion.py:103-118 | a non-zero price or unit count keeps its value, and every column other than the three sales columns is untouched |
| Cleaning.CleanFillsPrices | src/recoleccion.py:109-111 | when some price is a non-zero number, no price is missing after cleaning |
| Cleaning.CleanFillsUnits | src/recoleccion.py:112-114 | when some unit count is a non-zero number, no unit count is missing after cleaning |
| Cleaning.CleanIdempotent | src/recoleccion.py:103-118 | running the cleaning a second time changes nothing |
| Cleaning.CleanKeepsCleanTable | src/recoleccion.py:103-118 | a table with no zero or missing price or units, and a consistent sales value, is returned unchanged |
| Quantiles.Sort | src/recoleccion.py:58-59 | the values the quantile reads are sorted into a sorted permutation of the column's numbers |
| Quantiles.SortPermutationInvariant | src/recoleccion.py:58-59 | two arrangements of the same values sort to the same sequence |
| Quantiles.QuantileBetween | src/recoleccion.py:58-59 | the linear-interpolation quantile lies between the two elements it interpolates, hence between the minimum and the maximum |
| Quantiles.QuantileMonotone | src/recoleccion.py:58-59 | a larger probability never gives a smaller quantile, so Q1 <= Q3 |
| Quantiles.SortMapped | src/recoleccion.py:58-59 | sorting commutes with any change of unit that keeps the order of numbers |
| Quantiles.QuantileMapped | src/recoleccion.py:58-59 | for a change of unit that keeps the order and commutes with interpolation (such as a positive factor), the quantile of the converted values is the converted quantile |
| Events.Values | src/recoleccion.py:58-59 | the numbers the quantile sees are the numeric cells of the column, each as many times as the column holds it; missing cells are skipped |
| Events.ValuesMembers | src/recoleccion.py:58-59 | a number is among the values the quantile sees exactly when some cell of the column holds it |
| Events.FenceDefined | src/recoleccion.py:58-61 | the fence exists exactly when the column holds a number |
| Events.FenceAboveQuartiles | src/recoleccion.py:58-61 | minimum <= Q1 <= Q3 <= Q3 + 1.5 * (Q3 - Q1) |
| Events.FenceOrderFree | src/recoleccion.py:58-61 | the fence depends only on the multiset of values, not on the row order |
| Events.LabelSpecialEvents | src/recoleccion.py:57-64 | it fails exactly when the column is absent or holds text; otherwise it adds or overwrites `EventoEspecial_<column>`, keeps the row count and every other cell, and sets the flag to 1 exactly when the value is a number strictly above the fence, else 0 |
| Events.LabelAt | src/recoleccion.py:63 | the flag of row k in the labelled table is that row's value compared with the fence of the whole column |
| Events.AtMostQ3NotFlagged | src/recoleccion.py:58-63 | no value at or below Q3 is flagged |
| Events.MinimumNotFlagged | src/recoleccion.py:58-63 | the smallest number of a column is never flagged |
| Events.LabelsUpwardClosed | src/recoleccion.py:58-63 | in the labelled table, a row whose value is at least that of a flagged row is flagged too |
| Events.MinimumNotLabelled | src/recoleccion.py:58-63 | in the labelled table, the row holding the column minimum is not flagged |
| Events.FenceMapped | src/recoleccion.py:58-61 | converting the column to another unit (order-keeping and commuting with interpolation) converts the fence, and the fence exists after exactly when before |
| Events.FlagsMapped | src/recoleccion.py:58-63 | such a change of unit changes no flag |
| Events.FlagsScaleInvariant | src/recoleccion.py:58-63 | multiplying every number of the column by a positive factor changes no flag |
| Events.LabelsScaleInvariant | src/recoleccion.py:57-64 | a table whose column is another table's column times a positive factor can be labelled too, and every row gets the same label in both |
| Join.Matches | src/recoleccion.py:70-72 | the right rows that match a key are exactly the right rows holding that key |
| Join.JoinRowsAppend | src/recoleccion.py:70-72 | merging a table cut in two is merging the parts one after the other, so the left order is kept |
| Join.UniqueMatch | src/recoleccion.py:70-72 | with unique right keys a left row matches at most one right row |
| Join.JoinRowsUnique | src/recoleccion.py:70-72 | with unique right keys the merge has one row per left row, in order, each the left row plus its match or missing cells |
| Join.LeftJoin | src/recoleccion.py:70-72 | the merged table is well formed with the left columns followed by the right columns |
| Join.AddFoodSpendingPercentage | src/recoleccion.py:68-75 | it fails exactly when `Nivel Socioeconomico` or `NSE` is missing (in that order) or one key column holds text while the other is numeric; otherwise `NSE` is gone, the columns are the sales columns followed by the reference columns other than `NSE`, and no left row is lost |
| Join.TextKeysMerge | src/recoleccion.py:70-72 | two key columns that both hold text never clash |
| Join.FoodSpendingKeepsRows | src/recoleccion.py:70-74 | with unique `NSE` keys the row count and order are kept and every row keeps every field |
| Join.FoodSpendingMatched | src/recoleccion.py:70-74 | a row whose level has an entry gains that entry's fields, except `NSE` |
| Join.FoodSpendingUnmatched | src/recoleccion.py:70-74 | a row whose level has no entry gains missing cells for every reference column except `NSE` |
| Pipeline.ToInt | src/recoleccion.py:82 | `int()` on a number truncates toward zero, and fails on anything else |
| Pipeline.RowWeek | src/recoleccion.py:82 | the year and week are read exactly when both columns exist and hold numbers, and the pair read is `int(row['Anio'])`, `int(row['Semana'])`, each truncated toward zero; the error is the first one met in the order `row['Anio']` (a key error naming `Anio` when the row lacks it), `int()`, `row['Semana']` (a key error naming `Semana`), `int()` |
| Pipeline.CalendarOfDate | src/recoleccion.py:79-86 | the date `process_row` returns is a representable Monday in the row's ISO year and week, and the season is `get_season` of that Monday |
| Pipeline.CalendarOfHoliday | src/recoleccion.py:79-88 | the holiday field is 0 or 1, and it is 1 exactly when one of the seven days from that Monday on is reported as a holiday |
| Pipeline.ProcessRow | src/recoleccion.py:79-90 | the step-by-step `process_row`, using the querying loop, returns the reference calendar fields of the row or the first error met, with `Anio` read and converted before `Semana` |
| Pipeline.ProcessRows | src/recoleccion.py:121 | the `apply` succeeds exactly when every row passes; on failure it reports the error of the first failing row, all earlier rows having passed (pandas' row-wise `apply` lets the first exception propagate, so no later row is processed) |
| Pipeline.AddCalendarColumns | src/recoleccion.py:121 | writing `date`, `season` and `holiday` succeeds exactly when every row passes; it keeps the row count and gives each row its own three calendar cells, keeping the rest of the row |
| Pipeline.CleanKeepsCalendarInputs | src/recoleccion.py:103-121 | cleaning does not change what `process_row` computes for any row |
| Pipeline.Enrich | src/recoleccion.py:103-127 | the composed steps fail as cleaning fails; the merge may still fail on missing or clashing keys; on success every row passed `process_row`, the result has no `NSE` column, and it loses no row; with unique `NSE` keys it keeps the row count and every row still satisfies `Venta_valor == Venta_piezas * Precio` |

## Left out

- The API key check and `.env` loading (lines 8-14) are configuration I/O. The key is not part of the model.
- The HTTP request and JSON decoding (lines 40-50) are replaced by the `lookup` parameter. The URL, the request parameters and the country `"MX"` are not modelled. Neither is a request that raises, such as a connection error or a body that is not JSON.
- The holiday service is assumed to answer a given date the same way on every call and always to answer. The source sends a fresh request for each day of each row, with no timeout. So an outage or rate limit part-way through (a non-200 answer, read as "no holiday") could give two rows of the same week different flags, and a request could hang. Per-call variation and time-outs are not modelled.
- Reading and writing CSV files and the final `print` (lines 96-99, 130-132) are file I/O.
- `src/forecast.py` is not part of this model. It consists of a seasonal-regression library fit, floating-point error metrics, pandas' weekly date index and a prefix split.
- Floating-point rounding is not modelled. The mean, the quantiles, the fence and `units * price` use exact `real`s, and a float `NaN` is the `Missing` cell.
- Join.AddFoodSpendingPercentage: requires the two tables to share no column name. When names clash, pandas renames the clashing columns with `_x`/`_y` suffixes; that renaming is not modelled.
- Pipeline.Enrich: requires the reference table to share no column with the sales table or with the four columns the stage adds, for the same reason.
- Join.FoodSpendingKeepsRows: the row-count and per-row results assume unique `NSE` keys. The merge itself (`Join.JoinRows`) repeats a row once per matching entry, as pandas does. Nothing is proved about the rows of a merge with repeated keys beyond "no row is lost".
- Pipeline.ToInt: a text cell is rejected. Python's `int()` would parse a text cell holding digits; the model takes `Anio` and `Semana` as read from the CSV as numbers.
- Cleaning.Clean: a text cell in `Precio` or `Venta_piezas` makes the step fail. pandas' `infer_objects` and `to_numeric` dtype conversions are not modelled beyond that.
- `Venta_valor` zeros also become missing, but the column is overwritten by units times price right after, so the model only writes the product.
- Weeks.WeekStart: models interpreters whose `strptime` builds `%G %V %u` dates through `date.fromisocalendar`. That path rejects week 0 and a week 53 the ISO year does not have. Older interpreters roll such weeks into the neighbouring year instead.
- Pipeline.AddCalendarColumns: on a table with no rows, the model writes three empty columns. What pandas' `apply` returns for an empty table, and how the three-column assignment treats it, is not modelled.
- Join.AddFoodSpendingPercentage: pandas' dtype rules for merge keys are modelled only as "text against numbers fails". This is stricter than pandas in one case: a key column that mixes text with integers, which pandas infers as "mixed-integer" and merges without raising, fails in the model when the other key column is numeric. A key column of dates, a key column with no rows, and the other dtype combinations pandas checks are not modelled; such merges proceed by cell equality.

## Findings

| source | as written | input that shows it | evidently intended | confidence | as-written member | corrected member |
|---|---|---|---|---|---|---|
| src/recoleccion.py:20 | the winter test `date(year, 12, 21) <= date <= date(year + 1, 3, 19)` takes 21 December of the date's own year, so no date from 1 January to 19 March passes it | 2023-01-15 gets "Sin estacion" | winter from 21 December to 19 March, across the new year | high; not executed | Seasons.MidJanuaryHasNoSeason | Seasons.IntendedSeasonOfDate |

=== FILE: calendar.dfy ===
/** Proleptic-Gregorian calendar arithmetic as Python's `datetime.date`
    performs it: a date is its ordinal day number (0001-01-01 is day 1), so
    comparing dates and adding `timedelta(days=i)` are integer operations.

    The ISO 8601 week date (section 4.1.4 of ISO 8601:2004): week 1 of an ISO
    year is the Monday-to-Sunday week that contains 4 January. */
module Calendar {
  import opened Results

  /** Ordinal of 9999-12-31, the last day `datetime.date` can hold. */
  const MaxOrdinal := 3652059

  predicate IsLeap(y: int) {
    y % 4 == 0 && (y % 100 != 0 || y % 400 == 0)
  }

  function DaysInMonth(y: int, m: int): int
    requires 1 <= m <= 12
  {
    if m == 2 then (if IsLeap(y) then 29 else 28)
    else if m == 4 || m == 6 || m == 9 || m == 11 then 30
    else 31
  }

  predicate ValidDate(y: int, m: int, d: int) {
    1 <= m <= 12 && 1 <= d <= DaysInMonth(y, m)
  }

  /** Days in the years before `y` (the library's `_days_before_year`). */
  function DaysBeforeYear(y: int): int {
    var p := y - 1;
    p * 365 + p / 4 - p / 100 + p / 400
  }

  /** Days in the months of year `y` before month `m`. */
  function DaysBeforeMonth(y: int, m: int): int
    requires 1 <= m <= 12
  {
    [0, 31, 59, 90, 120, 151, 181, 212, 243, 273, 304, 334][m - 1]
    + (if m > 2 && IsLeap(y) then 1 else 0)
  }

  /** The ordinal of (y, m, d), as `date(y, m, d).toordinal()`. */
  function Ordinal(y: int, m: int, d: int): int
    requires 1 <= m <= 12
  {
    DaysBeforeYear(y) + DaysBeforeMonth(y, m) + d
  }

  /** The ordinal of 1 January of year `y`. */
  function Jan1(y: int): int {
    DaysBeforeYear(y) + 1
  }

  /** ISO day of the week: 1 is Monday, 7 is Sunday (`isoweekday()`). */
  function IsoWeekday(n: int): (wd: int)
    ensures 1 <= wd <= 7
  {
    (n + 6) % 7 + 1
  }

  // ---------------------------------------------------------------------
  // Years
  // ---------------------------------------------------------------------

  lemma YearLength(y: int)
    ensures DaysBeforeYear(y + 1) - DaysBeforeYear(y) == if IsLeap(y) then 366 else 365
  {
    QuotientStep4(y);
    QuotientStep100(y);
    QuotientStep400(y);
  }

  lemma QuotientStep4(a: int)
    ensures a / 4 - (a - 1) / 4 == if a % 4 == 0 then 1 else 0
  {
  }

  lemma QuotientStep100(a: int)
    ensures a / 100 - (a - 1) / 100 == if a % 100 == 0 then 1 else 0
  {
  }

  lemma QuotientStep400(a: int)
    ensures a / 400 - (a - 1) / 400 == if a % 400 == 0 then 1 else 0
  {
  }

  lemma DaysBeforeYearStrictlyIncreasing(a: int, b: int)
    requires a < b
    ensures DaysBeforeYear(a) < DaysBeforeYear(b)
  {
    var pa, pb := a - 1, b - 1;
    assert pb / 4 >= pa / 4;
    assert pb / 400 >= pa / 400;
    assert 100 * (pb / 100 - pa / 100) <= pb - pa + 99;
  }

  /** The year count repeats every 400 years, which hold 146097 days. */
  lemma CycleShift(q: int, j: int)
    ensures DaysBeforeYear(400 * q + j + 1) == 146097 * q + DaysBeforeYear(j + 1)
  {
    var a := 400 * q + j;
    assert a / 4 == 100 * q + j / 4;
    assert a / 100 == 4 * q + j / 100;
    assert a / 400 == q + j / 400;
  }

  /** The year within a 400-year cycle that holds day `r` of the cycle,
      found by scanning forward from year `k`. */
  function YearInCycle(r: int, k: nat): (j: nat)
    requires k < 400 && DaysBeforeYear(k + 1) <= r < 146097
    ensures k <= j < 400
    ensures DaysBeforeYear(j + 1) <= r < DaysBeforeYear(j + 2)
    decreases 400 - k
  {
    if r < DaysBeforeYear(k + 2) then k else YearInCycle(r, k + 1)
  }

  /** The calendar year of ordinal `n` (the `year` attribute of
      `date.fromordinal(n)`). */
  function YearOf(n: int): (y: int)
    ensures Jan1(y) <= n < Jan1(y + 1)
  {
    YearFromCycle(n, (n - 1) / 146097, (n - 1) % 146097)
  }

  /** The year of day `n`, which is day `r` of 400-year cycle `q`. */
  function YearFromCycle(n: int, q: int, r: int): (y: int)
    requires n - 1 == 146097 * q + r && 0 <= r < 146097
    ensures Jan1(y) <= n < Jan1(y + 1)
  {
    assert DaysBeforeYear(1) == 0;
    var j := YearInCycle(r, 0);
    YearInCycleShift(n, q, r, j);
    var y := 400 * q + j + 1;
    assert y + 1 == 400 * q + j + 2;
    y
  }

  lemma YearInCycleShift(n: int, q: int, r: int, j: int)
    requires n - 1 == 146097 * q + r
    requires DaysBeforeYear(j + 1) <= r < DaysBeforeYear(j + 2)
    ensures Jan1(400 * q + j + 1) <= n < Jan1(400 * q + j + 2)
  {
    CycleShift(q, j);
    CycleShift(q, j + 1);
  }

  /** A day belongs to exactly one year. */
  lemma YearOfUnique(n: int, y: int)
    requires Jan1(y) <= n < Jan1(y + 1)
    ensures YearOf(n) == y
  {
    var z := YearOf(n);
    if z < y {
      if z + 1 < y { DaysBeforeYearStrictlyIncreasing(z + 1, y); }
      assert false;
    } else if z > y {
      if y + 1 < z { DaysBeforeYearStrictlyIncreasing(y + 1, z); }
      assert false;
    }
  }

  lemma DaysBeforeMonthStep(y: int, m: int)
    requires 1 <= m <= 12
    ensures m < 12 ==> DaysBeforeMonth(y, m + 1) == DaysBeforeMonth(y, m) + DaysInMonth(y, m)
    ensures m == 12 ==> DaysBeforeMonth(y, m) + DaysInMonth(y, m) == if IsLeap(y) then 366 else 365
  {
  }

  lemma DaysBeforeMonthIncreasing(y: int, m: int, m': int)
    requires 1 <= m < m' <= 12
    ensures DaysBeforeMonth(y, m) + DaysInMonth(y, m) <= DaysBeforeMonth(y, m')
  {
  }

  /** Every valid date of year `y` lies within that year's ordinals. */
  lemma {:induction false} DateWithinYear(y: int, m: int, d: int)
    requires ValidDate(y, m, d)
    ensures DaysBeforeYear(y) < Ordinal(y, m, d) <= DaysBeforeYear(y + 1)
  {
    YearLength(y);
    if m < 12 {
      DaysBeforeMonthIncreasing(y, m, 12);
    }
    DaysBeforeMonthStep(y, 12);
  }

  /** `YearOf` recovers the year of every valid date. */
  lemma {:induction false} YearOfDate(y: int, m: int, d: int)
    requires ValidDate(y, m, d)
    ensures YearOf(Ordinal(y, m, d)) == y
  {
    DateWithinYear(y, m, d);
    YearOfUnique(Ordinal(y, m, d), y);
  }

  /** Within one year, ordinals follow the (month, day) order. */
  lemma OrdinalOrder(y: int, m: int, d: int, m': int, d': int)
    requires ValidDate(y, m, d) && ValidDate(y, m', d')
    ensures Ordinal(y, m, d) <= Ordinal(y, m', d') <==> (m < m' || (m == m' && d <= d'))
  {
    if m < m' {
      DaysBeforeMonthIncreasing(y, m, m');
    } else if m' < m {
      DaysBeforeMonthIncreasing(y, m', m);
    }
  }

  // ---------------------------------------------------------------------
  // ISO weeks
  // ---------------------------------------------------------------------

  /** An ISO week date: ISO year, week number, ISO weekday. */
  datatype IsoDate = IsoDate(year: int, week: int, weekday: int)

  /** The Monday on or before `day + 3`, given `day` is 1 January: the
      week-1 rule applied to the ordinal of 1 January. */
  function Week1MondayOf(jan1: int): (w1: int)
    ensures IsoWeekday(w1) == 1
    ensures w1 <= jan1 + 3 < w1 + 7
  {
    var firstweekday := (jan1 + 6) % 7;
    var monday := jan1 - firstweekday;
    if firstweekday > 3 then monday + 7 else monday
  }

  /** The Monday that starts week 1 of ISO year `y` (the library's
      `_isoweek1monday`): the Monday of the week holding 4 January. */
  function IsoWeek1Monday(y: int): (w1: int)
    ensures IsoWeekday(w1) == 1
    ensures w1 <= Jan1(y) + 3 < w1 + 7
  {
    Week1MondayOf(Jan1(y))
  }

  /** Whether ISO year `y` has a week 53: its 1 January is a Thursday, or a
      Wednesday of a leap year (the test `fromisocalendar` applies). */
  function WeeksInYear(y: int): int {
    WeeksFrom(Jan1(y), IsLeap(y))
  }

  function WeeksFrom(jan1: int, leap: bool): int {
    var first := jan1 % 7;
    if first == 4 || (first == 3 && leap) then 53 else 52
  }

  /** The ordinal of ISO week date (y, w, d), as `fromisocalendar` computes it. */
  function FromIsoWeek(y: int, w: int, d: int): int {
    IsoWeek1Monday(y) + 7 * (w - 1) + (d - 1)
  }

  /** The ISO week date of ordinal `n`, following `date.isocalendar()`:
      start from the calendar year, step back a year when `n` precedes that
      year's week 1, and forward when it is on or after next year's. */
  function IsoCalendar(n: int): IsoDate {
    var year := YearOf(n);
    IsoCalendarFrom(n, year, IsoWeek1Monday(year - 1), IsoWeek1Monday(year), IsoWeek1Monday(year + 1))
  }

  /** The body of `isocalendar()` once the week-1 Mondays of the calendar
      year `year` and of its neighbours are known. */
  function IsoCalendarFrom(n: int, year: int, prevMonday: int, monday: int, nextMonday: int): IsoDate {
    var week := (n - monday) / 7;
    if week < 0 then
      IsoDate(year - 1, (n - prevMonday) / 7 + 1, IsoWeekday(n))
    else if week >= 52 && n >= nextMonday then
      IsoDate(year + 1, 1, IsoWeekday(n))
    else
      IsoDate(year, week + 1, IsoWeekday(n))
  }

  lemma NewYearStep(y: int)
    ensures Jan1(y + 1) == Jan1(y) + if IsLeap(y) then 366 else 365
  {
    YearLength(y);
  }

  lemma Week1Span(jan1: int, leap: bool)
    ensures Week1MondayOf(jan1 + (if leap then 366 else 365))
         == Week1MondayOf(jan1) + 7 * WeeksFrom(jan1, leap)
  {
    var f := (jan1 + 6) % 7;
    var l := if leap then 1 else 0;
    assert (jan1 + 365 + l + 6) % 7 == (f + 1 + l) % 7;
    assert jan1 % 7 == (f + 1) % 7;
  }

  /** Consecutive ISO years are `WeeksInYear` whole weeks apart. */
  lemma {:induction false} WeeksInYearSpan(y: int)
    ensures IsoWeek1Monday(y + 1) == IsoWeek1Monday(y) + 7 * WeeksInYear(y)
  {
    NewYearStep(y);
    Week1Span(Jan1(y), IsLeap(y));
  }

  /** Week 1 starts within three days of 1 January. */
  lemma Week1NearNewYear(y: int)
    ensures Jan1(y) - 3 <= IsoWeek1Monday(y) <= Jan1(y) + 3
  {
  }

  /** `IsoCalendarFrom` on a day of calendar year `year`, whose 1 January is
      `jan1`, lands in one of three neighbouring ISO years, each time at a
      valid week. */
  lemma IsoCalendarFromValid(n: int, year: int, jan1: int, nextJan1: int,
                             prev: int, cur: int, next: int, kPrev: int, kCur: int)
    requires jan1 <= n < nextJan1
    requires jan1 - 3 <= cur <= jan1 + 3 && nextJan1 - 3 <= next <= nextJan1 + 3
    requires kPrev == 52 || kPrev == 53
    requires kCur == 52 || kCur == 53
    requires cur == prev + 7 * kPrev && next == cur + 7 * kCur
    requires IsoWeekday(cur) == 1
    ensures var r := IsoCalendarFrom(n, year, prev, cur, next);
      && r.weekday == IsoWeekday(n)
      && (r.year == year - 1 ==> 1 <= r.week <= kPrev && prev + 7 * (r.week - 1) + (r.weekday - 1) == n)
      && (r.year == year ==> 1 <= r.week <= kCur && cur + 7 * (r.week - 1) + (r.weekday - 1) == n)
      && (r.year == year + 1 ==> r.week == 1 && next + (r.weekday - 1) == n)
      && year - 1 <= r.year <= year + 1
  {
  }

  /** The weekday of the ISO week date is the weekday of the ordinal. */
  lemma IsoCalendarWeekday(n: int)
    ensures IsoCalendar(n).weekday == IsoWeekday(n)
  {
  }

  /** The ISO week date of an ordinal is a valid one that maps back to it. */
  lemma {:induction false} IsoCalendarValid(n: int)
    ensures 1 <= IsoCalendar(n).week <= WeeksInYear(IsoCalendar(n).year)
    ensures 1 <= IsoCalendar(n).weekday <= 7
    ensures FromIsoWeek(IsoCalendar(n).year, IsoCalendar(n).week, IsoCalendar(n).weekday) == n
  {
    var year := YearOf(n);
    var jan1, nextJan1 := Jan1(year), Jan1(year + 1);
    var prev, cur, next := IsoWeek1Monday(year - 1), IsoWeek1Monday(year), IsoWeek1Monday(year + 1);
    var kPrev, kCur := WeeksInYear(year - 1), WeeksInYear(year);
    assert jan1 - 3 <= cur <= jan1 + 3 by { Week1NearNewYear(year); }
    assert nextJan1 - 3 <= next <= nextJan1 + 3 by { Week1NearNewYear(year + 1); }
    assert cur == prev + 7 * kPrev by { WeeksInYearSpan(year - 1); }
    assert next == cur + 7 * kCur by { WeeksInYearSpan(year); }
    IsoCalendarFromValid(n, year, jan1, nextJan1, prev, cur, next, kPrev, kCur);
    IsoCalendarAt(n, year);
    var r := IsoCalendar(n);
    if r.year == year - 1 {
      assert FromIsoWeek(r.year, r.week, r.weekday) == prev + 7 * (r.week - 1) + (r.weekday - 1);
    } else if r.year == year {
      assert FromIsoWeek(r.year, r.week, r.weekday) == cur + 7 * (r.week - 1) + (r.weekday - 1);
    } else {
      assert FromIsoWeek(r.year, r.week, r.weekday) == next + 7 * (r.week - 1) + (r.weekday - 1);
      assert WeeksInYear(r.year) >= 52;
    }
  }

  /** Day `e` after a Monday, counting whole weeks `k` in between. */
  lemma WeekdayAfterMonday(m: int, k: int, e: int)
    requires IsoWeekday(m) == 1 && 0 <= e < 7
    ensures IsoWeekday(m + 7 * k + e) == e + 1
    ensures (7 * k + e) / 7 == k
  {
    assert (m + 6) % 7 == 0;
    assert m + 7 * k + e + 6 == (m + 6) + 7 * k + e;
  }

  /** `IsoCalendarFrom` on day `d` of week `w` of the ISO year whose week 1
      starts at `m1`, for each calendar year the day can fall in. */
  lemma IsoCalendarFromWeekDay(n: int, y: int, w: int, d: int, year: int, jan1: int,
                               prev: int, cur: int, next: int, m0: int, m1: int, m2: int, k0: int, k1: int)
    requires 1 <= d <= 7 && 1 <= w <= k1
    requires k0 == 52 || k0 == 53
    requires k1 == 52 || k1 == 53
    requires m1 == m0 + 7 * k0 && m2 == m1 + 7 * k1
    requires jan1 - 3 <= m1 <= jan1 + 3
    requires IsoWeekday(m1) == 1
    requires n == m1 + 7 * (w - 1) + (d - 1)
    requires year == y - 1 ==> n < jan1 && cur == m0 && next == m1
    requires year == y ==> prev == m0 && cur == m1 && next == m2
    requires year == y + 1 ==> prev == m1 && cur == m2
    requires y - 1 <= year <= y + 1
    ensures IsoCalendarFrom(n, year, prev, cur, next) == IsoDate(y, w, d)
  {
    WeekdayAfterMonday(m1, w - 1, d - 1);
    assert IsoWeekday(n) == d;
    if year == y - 1 {
      assert w == 1;
      assert n - cur == 7 * k0 + (d - 1);
      WeekdayAfterMonday(m1, k0, d - 1);
      assert (n - cur) / 7 == k0;
    } else if year == y {
      assert n - cur == 7 * (w - 1) + (d - 1);
      assert (n - cur) / 7 == w - 1;
    } else {
      assert n - prev == 7 * (w - 1) + (d - 1);
      assert (n - prev) / 7 == w - 1;
      assert n < cur;
      assert (n - cur) / 7 < 0;
    }
  }

  lemma IsoCalendarAt(n: int, year: int)
    requires YearOf(n) == year
    ensures IsoCalendar(n)
         == IsoCalendarFrom(n, year, IsoWeek1Monday(year - 1), IsoWeek1Monday(year), IsoWeek1Monday(year + 1))
  {
  }

  /** Day `d` of ISO week `w` of year `y` lies within three days of that
      calendar year. */
  lemma WeekDayNearYear(y: int, w: int, d: int)
    requires 1 <= w <= WeeksInYear(y) && 1 <= d <= 7
    ensures Jan1(y) - 3 <= FromIsoWeek(y, w, d) <= Jan1(y + 1) + 2
  {
    assert IsoWeek1Monday(y + 1) == IsoWeek1Monday(y) + 7 * WeeksInYear(y) by { WeeksInYearSpan(y); }
    Week1NearNewYear(y);
    Week1NearNewYear(y + 1);
  }

  /** The calendar year of day `d` of ISO week `w` of ISO year `y`: the one
      before, `y` itself, or the one after. */
  lemma CalendarYearOfWeekDay(y: int, w: int, d: int) returns (year: int)
    requires 1 <= w <= WeeksInYear(y) && 1 <= d <= 7
    ensures year == YearOf(FromIsoWeek(y, w, d))
    ensures year == y - 1 ==> FromIsoWeek(y, w, d) < Jan1(y)
    ensures y - 1 <= year <= y + 1
  {
    WeekDayNearYear(y, w, d);
    year := CalendarYearNear(FromIsoWeek(y, w, d), y);
  }

  /** A day within three days of year `y` falls in `y` or a neighbour. */
  lemma CalendarYearNear(n: int, y: int) returns (year: int)
    requires Jan1(y) - 3 <= n <= Jan1(y + 1) + 2
    ensures year == YearOf(n)
    ensures year == y - 1 ==> n < Jan1(y)
    ensures y - 1 <= year <= y + 1
  {
    if n < Jan1(y) {
      assert Jan1(y - 1) <= n by { NewYearStep(y - 1); }
      YearOfUnique(n, y - 1);
      year := y - 1;
    } else if n < Jan1(y + 1) {
      YearOfUnique(n, y);
      year := y;
    } else {
      assert n < Jan1(y + 2) by { NewYearStep(y + 1); }
      YearOfUnique(n, y + 1);
      year := y + 1;
    }
  }

  /** Every valid ISO week date names the day `FromIsoWeek` gives it. */
  lemma {:induction false} IsoCalendarOfWeekDay(y: int, w: int, d: int)
    requires 1 <= w <= WeeksInYear(y) && 1 <= d <= 7
    ensures IsoCalendar(FromIsoWeek(y, w, d)) == IsoDate(y, w, d)
  {
    var n := FromIsoWeek(y, w, d);
    var m0, m1, m2 := IsoWeek1Monday(y - 1), IsoWeek1Monday(y), IsoWeek1Monday(y + 1);
    var k0, k1 := WeeksInYear(y - 1), WeeksInYear(y);
    assert m1 == m0 + 7 * k0 by { WeeksInYearSpan(y - 1); }
    assert m2 == m1 + 7 * k1 by { WeeksInYearSpan(y); }
    var year := CalendarYearOfWeekDay(y, w, d);
    IsoCalendarAt(n, year);
    IsoCalendarFromWeekDay(n, y, w, d, year, Jan1(y),
      IsoWeek1Monday(year - 1), IsoWeek1Monday(year), IsoWeek1Monday(year + 1), m0, m1, m2, k0, k1);
  }
}

=== FILE: cleaning.dfy ===
/** The cleaning steps at the start of `main`: zero read as missing in the
    units, sales-value and price columns; missing price and units imputed
    with the column mean; sales value recomputed as units times price. */
module Cleaning {
  import opened Results
  import opened Frames

  const Units := "Venta_piezas"
  const SalesValue := "Venta_valor"
  const Price := "Precio"

  /** `.replace(0, pd.NA)` on one column. */
  function ZeroToMissing(cells: seq<Cell>): (r: seq<Cell>)
    ensures |r| == |cells|
    ensures forall k :: 0 <= k < |r| ==> r[k] != Num(0.0)
    ensures forall k :: 0 <= k < |r| && cells[k] != Num(0.0) ==> r[k] == cells[k]
    ensures forall k :: 0 <= k < |r| && cells[k] == Num(0.0) ==> r[k] == Missing
  {
    seq(|cells|, k requires 0 <= k < |cells| => if cells[k] == Num(0.0) then Missing else cells[k])
  }

  /** How many cells hold a number. */
  function PresentCount(cells: seq<Cell>): nat {
    if |cells| == 0 then 0
    else PresentCount(cells[..|cells| - 1]) + (if cells[|cells| - 1].Num? then 1 else 0)
  }

  /** The sum of the cells that hold a number. */
  function PresentSum(cells: seq<Cell>): real {
    if |cells| == 0 then 0.0
    else PresentSum(cells[..|cells| - 1]) + (if cells[|cells| - 1].Num? then cells[|cells| - 1].x else 0.0)
  }

  /** How many cells are missing. */
  function MissingCount(cells: seq<Cell>): nat {
    if |cells| == 0 then 0
    else MissingCount(cells[..|cells| - 1]) + (if cells[|cells| - 1].Missing? then 1 else 0)
  }

  /** `Series.mean()`: the average of the numbers, skipping missing cells;
      `NaN` (here `None`) when there is no number at all. */
  function Mean(cells: seq<Cell>): (m: Option<real>)
    ensures m.Some? <==> exists k :: 0 <= k < |cells| && cells[k].Num?
    ensures m.Some? <==> PresentCount(cells) > 0
  {
    PresentCountZero(cells);
    if PresentCount(cells) == 0 then None
    else Some(PresentSum(cells) / PresentCount(cells) as real)
  }

  lemma {:induction false} PresentCountZero(cells: seq<Cell>)
    ensures PresentCount(cells) == 0 <==> forall k :: 0 <= k < |cells| ==> !cells[k].Num?
  {
    if |cells| > 0 {
      var init := cells[..|cells| - 1];
      PresentCountZero(init);
      assert forall k :: 0 <= k < |init| ==> init[k] == cells[k];
    }
  }

  lemma {:induction false} PresentSumBounds(cells: seq<Cell>, lo: real, hi: real)
    requires forall k :: 0 <= k < |cells| && cells[k].Num? ==> lo <= cells[k].x <= hi
    ensures lo * PresentCount(cells) as real <= PresentSum(cells) <= hi * PresentCount(cells) as real
  {
    if |cells| > 0 {
      var init := cells[..|cells| - 1];
      assert forall k :: 0 <= k < |init| ==> init[k] == cells[k];
      PresentSumBounds(init, lo, hi);
    }
  }

  /** The mean lies between the smallest and the largest number averaged. */
  lemma MeanWithinRange(cells: seq<Cell>, lo: real, hi: real)
    requires Mean(cells).Some?
    requires forall k :: 0 <= k < |cells| && cells[k].Num? ==> lo <= cells[k].x <= hi
    ensures lo <= Mean(cells).value <= hi
  {
    PresentSumBounds(cells, lo, hi);
    AverageWithin(PresentSum(cells), PresentCount(cells) as real, lo, hi);
  }

  /** A sum bounded by `n` times `lo` and `hi` averages between them. */
  lemma AverageWithin(sum: real, n: real, lo: real, hi: real)
    requires n > 0.0 && lo * n <= sum <= hi * n
    ensures lo <= sum / n <= hi
  {
    var m := sum / n;
    Rescale(sum, n);
    if m < lo {
      ScaleStrict(m, lo, n);
    }
    if m > hi {
      ScaleStrict(hi, m, n);
    }
  }

  lemma ScaleStrict(a: real, b: real, n: real)
    requires a < b && n > 0.0
    ensures a * n < b * n
  {
    assert (b - a) * n > 0.0;
    assert (b - a) * n == b * n - a * n;
  }

  lemma Rescale(a: real, n: real)
    requires n > 0.0
    ensures (a / n) * n == a
  {
  }

  lemma Unscale(a: real, n: real)
    requires n > 0.0
    ensures (a * n) / n == a
  {
  }

  /** `.fillna(fill)`: every missing cell takes the fill value, when there
      is one; a `NaN` fill leaves the column as it was. */
  function FillMissing(cells: seq<Cell>, fill: Option<real>): (r: seq<Cell>)
    ensures |r| == |cells|
    ensures forall k :: 0 <= k < |r| && !cells[k].Missing? ==> r[k] == cells[k]
    ensures forall k :: 0 <= k < |r| && cells[k].Missing? ==> r[k] == if fill.Some? then Num(fill.value) else Missing
  {
    seq(|cells|, k requires 0 <= k < |cells| =>
      if cells[k].Missing? && fill.Some? then Num(fill.value) else cells[k])
  }

  /** Zero to missing, then missing to the mean of what is left. */
  function CleanColumn(cells: seq<Cell>): seq<Cell> {
    var present := ZeroToMissing(cells);
    FillMissing(present, Mean(present))
  }

  /** What cleaning does to one numeric column: non-zero numbers stay; every
      zero or missing cell becomes the mean of the non-zero numbers, or stays
      missing when the column has none. */
  lemma CleanColumnSpec(cells: seq<Cell>)
    requires NumericCells(cells)
    ensures |CleanColumn(cells)| == |cells|
    ensures forall k :: 0 <= k < |cells| && cells[k].Num? && cells[k].x != 0.0 ==> CleanColumn(cells)[k] == cells[k]
    ensures var m := Mean(ZeroToMissing(cells));
      forall k :: 0 <= k < |cells| && !(cells[k].Num? && cells[k].x != 0.0) ==>
        CleanColumn(cells)[k] == if m.Some? then Num(m.value) else Missing
    ensures (exists k :: 0 <= k < |cells| && cells[k].Num? && cells[k].x != 0.0) ==>
      forall k :: 0 <= k < |cells| ==> CleanColumn(cells)[k].Num?
    ensures (forall k :: 0 <= k < |cells| ==> !(cells[k].Num? && cells[k].x != 0.0)) ==>
      forall k :: 0 <= k < |cells| ==> CleanColumn(cells)[k].Missing?
    ensures NumericCells(CleanColumn(cells))
  {
    var present := ZeroToMissing(cells);
    PresentCountZero(present);
    if exists k :: 0 <= k < |cells| && cells[k].Num? && cells[k].x != 0.0 {
      var k :| 0 <= k < |cells| && cells[k].Num? && cells[k].x != 0.0;
      assert present[k].Num?;
    }
  }

  /** Cleaning keeps the length and the column stays numeric. */
  lemma CleanColumnShape(cells: seq<Cell>)
    requires NumericCells(cells)
    ensures |CleanColumn(cells)| == |cells| && NumericCells(CleanColumn(cells))
  {
  }

  /** A non-zero number survives cleaning. */
  lemma CleanColumnKeeps(cells: seq<Cell>, k: int)
    requires 0 <= k < |cells| && cells[k].Num? && cells[k].x != 0.0
    ensures |CleanColumn(cells)| == |cells| && CleanColumn(cells)[k] == cells[k]
  {
  }

  /** One non-zero number is enough for cleaning to leave no gap. */
  lemma CleanColumnFull(cells: seq<Cell>, j: int)
    requires NumericCells(cells)
    requires 0 <= j < |cells| && cells[j].Num? && cells[j].x != 0.0
    ensures |CleanColumn(cells)| == |cells|
    ensures forall k :: 0 <= k < |cells| ==> CleanColumn(cells)[k].Num?
  {
    CleanColumnSpec(cells);
  }

  lemma {:induction false} FillCounts(cells: seq<Cell>, v: real)
    requires NumericCells(cells)
    ensures PresentCount(FillMissing(cells, Some(v))) == PresentCount(cells) + MissingCount(cells)
    ensures PresentSum(FillMissing(cells, Some(v))) == PresentSum(cells) + MissingCount(cells) as real * v
  {
    if |cells| > 0 {
      var init := cells[..|cells| - 1];
      var filled := FillMissing(cells, Some(v));
      assert NumericCells(init);
      FillCounts(init, v);
      assert filled[..|filled| - 1] == FillMissing(init, Some(v));
    }
  }

  /** Filling the missing cells with the mean leaves the mean unchanged. */
  lemma MeanAfterFill(cells: seq<Cell>, v: real)
    requires NumericCells(cells)
    requires Mean(cells) == Some(v)
    ensures Mean(FillMissing(cells, Some(v))) == Some(v)
  {
    var filled := FillMissing(cells, Some(v));
    var n, extra := PresentCount(cells) as real, MissingCount(cells) as real;
    var sum := PresentSum(cells);
    assert n > 0.0 && sum / n == v;
    assert PresentCount(filled) as real == n + extra && PresentSum(filled) == sum + extra * v by {
      FillCounts(cells, v);
    }
    AverageAfterFill(sum, n, extra, v);
  }

  /** Adding `extra` copies of an average to the sum it came from keeps the
      average. */
  lemma AverageAfterFill(sum: real, n: real, extra: real, v: real)
    requires n > 0.0 && extra >= 0.0 && sum / n == v
    ensures (sum + extra * v) / (n + extra) == v
  {
    Rescale(sum, n);
    assert sum + extra * v == v * (n + extra);
    Unscale(v, n + extra);
  }

  /** Cleaning a cleaned column changes nothing.  When the imputed mean is
      itself zero the second pass turns those cells back into missing ones
      and then refills them with the same mean. */
  lemma CleanColumnIdempotent(cells: seq<Cell>)
    requires NumericCells(cells)
    ensures CleanColumn(CleanColumn(cells)) == CleanColumn(cells)
  {
    var present := ZeroToMissing(cells);
    var m := Mean(present);
    var once := FillMissing(present, m);
    PresentCountZero(present);
    if m.None? {
      assert once == present;
      assert ZeroToMissing(once) == once;
    } else if m.value != 0.0 {
      assert ZeroToMissing(once) == once;
      MeanAfterFill(present, m.value);
      assert FillMissing(once, m) == once;
    } else {
      assert ZeroToMissing(once) == present;
    }
  }

  /** `units * price` on two cells: `NaN` as soon as either is missing. */
  function Product(units: Cell, price: Cell): Cell {
    if units.Num? && price.Num? then Num(units.x * price.x) else Missing
  }

  /** The three columns the cleaning touches exist, and the two that are
      averaged hold only numbers and missing cells. */
  predicate Cleanable(f: Frame) {
    && WellFormed(f)
    && Units in f.columns && SalesValue in f.columns && Price in f.columns
    && NumericCells(Column(f, Units)) && NumericCells(Column(f, Price))
  }

  /** One row after cleaning, given its cleaned price and unit count. */
  function CleanRow(row: Row, price: Cell, units: Cell): Row {
    row[Price := price][Units := units][SalesValue := Product(units, price)]
  }

  /** Writing the same cleaned values twice gives the same row. */
  lemma CleanRowTwice(row: Row, price: Cell, units: Cell)
    ensures CleanRow(CleanRow(row, price, units), price, units) == CleanRow(row, price, units)
  {
  }

  /** The three written cells, and every other cell as it was. */
  lemma CleanRowCells(row: Row, price: Cell, units: Cell)
    ensures var r := CleanRow(row, price, units);
      r[Price] == price && r[Units] == units && r[SalesValue] == Product(units, price)
    ensures forall c :: c in row && c != Units && c != SalesValue && c != Price ==>
      c in CleanRow(row, price, units) && CleanRow(row, price, units)[c] == row[c]
  {
  }

  /** Writing back the values a row already holds gives the same row. */
  lemma CleanRowUnchanged(row: Row, price: Cell, units: Cell)
    requires Price in row && Units in row && SalesValue in row
    requires row[Price] == price && row[Units] == units && row[SalesValue] == Product(units, price)
    ensures CleanRow(row, price, units) == row
  {
  }

  /** A table whose every row is `CleanRow` of the matching input row keeps
      its columns and holds the given price and unit columns. */
  lemma CleanRowsShape(f: Frame, prices: seq<Cell>, units: seq<Cell>, r: Frame)
    requires Cleanable(f) && |prices| == |f.rows| && |units| == |f.rows|
    requires r.columns == f.columns && |r.rows| == |f.rows|
    requires forall k :: 0 <= k < |r.rows| ==> r.rows[k] == CleanRow(f.rows[k], prices[k], units[k])
    ensures WellFormed(r) && Column(r, Price) == prices && Column(r, Units) == units
    ensures forall k :: 0 <= k < |r.rows| ==> r.rows[k][SalesValue] == Product(r.rows[k][Units], r.rows[k][Price])
  {
    forall k | 0 <= k < |r.rows|
      ensures r.rows[k].Keys == Names(f.columns)
      ensures r.rows[k][Price] == prices[k] && r.rows[k][Units] == units[k]
      ensures r.rows[k][SalesValue] == Product(r.rows[k][Units], r.rows[k][Price])
    {
      CleanRowCells(f.rows[k], prices[k], units[k]);
    }
  }

  /** Price first, then units, then the recomputed sales value; every other
      cell stays as it was. */
  function CleanFrame(f: Frame): (r: Frame)
    requires Cleanable(f)
    ensures WellFormed(r) && r.columns == f.columns && |r.rows| == |f.rows|
    ensures Column(r, Price) == CleanColumn(Column(f, Price))
    ensures Column(r, Units) == CleanColumn(Column(f, Units))
    ensures forall k :: 0 <= k < |r.rows| ==> r.rows[k][SalesValue] == Product(r.rows[k][Units], r.rows[k][Price])
  {
    var prices := CleanColumn(Column(f, Price));
    var units := CleanColumn(Column(f, Units));
    CleanColumnShape(Column(f, Price));
    CleanColumnShape(Column(f, Units));
    var r := Frame(f.columns, seq(|f.rows|, k requires 0 <= k < |f.rows| => CleanRow(f.rows[k], prices[k], units[k])));
    CleanRowsShape(f, prices, units, r);
    r
  }

  /** The cleaning block of `main` on a whole table.  Selecting the three
      columns fails when one is absent; averaging fails on a column that
      holds text, and `Precio` is averaged before `Venta_piezas`. */
  function Clean(f: Frame): (r: Result<Frame>)
    requires WellFormed(f)
    ensures r.Success? <==> Cleanable(f)
    ensures r.Failure? && !(Units in f.columns && SalesValue in f.columns && Price in f.columns) ==>
      r.error.MissingColumn? && r.error.name !in f.columns
    ensures r.Failure? && (Units in f.columns && SalesValue in f.columns && Price in f.columns) ==>
      r.error == if !NumericCells(Column(f, Price)) then NotNumeric(Price) else NotNumeric(Units)
  {
    if Units !in f.columns then Failure(MissingColumn(Units))
    else if SalesValue !in f.columns then Failure(MissingColumn(SalesValue))
    else if Price !in f.columns then Failure(MissingColumn(Price))
    else if !NumericCells(Column(f, Price)) then Failure(NotNumeric(Price))
    else if !NumericCells(Column(f, Units)) then Failure(NotNumeric(Units))
    else Success(CleanFrame(f))
  }

  /** Every cleaned row satisfies `Venta_valor = Venta_piezas * Precio`. */
  lemma CleanSalesValue(f: Frame)
    requires WellFormed(f) && Clean(f).Success?
    ensures var r := Clean(f).value;
      forall k :: 0 <= k < |r.rows| ==> r.rows[k][SalesValue] == Product(r.rows[k][Units], r.rows[k][Price])
  {
    var r := Clean(f).value;
    var newPrices := CleanColumn(Column(f, Price));
    var newUnits := CleanColumn(Column(f, Units));
    forall k | 0 <= k < |r.rows|
      ensures r.rows[k][SalesValue] == Product(r.rows[k][Units], r.rows[k][Price])
    {
      CleanRowCells(f.rows[k], newPrices[k], newUnits[k]);
    }
  }

  /** A non-zero price or unit count is kept as it was, and every column
      the cleaning does not touch is kept too. */
  lemma CleanKeeps(f: Frame)
    requires WellFormed(f) && Clean(f).Success?
    ensures var r := Clean(f).value;
      forall k :: 0 <= k < |r.rows| && f.rows[k][Price].Num? && f.rows[k][Price].x != 0.0 ==> r.rows[k][Price] == f.rows[k][Price]
    ensures var r := Clean(f).value;
      forall k :: 0 <= k < |r.rows| && f.rows[k][Units].Num? && f.rows[k][Units].x != 0.0 ==> r.rows[k][Units] == f.rows[k][Units]
    ensures var r := Clean(f).value;
      forall k, c :: 0 <= k < |r.rows| && c in f.rows[k] && c != Units && c != SalesValue && c != Price ==>
        c in r.rows[k] && r.rows[k][c] == f.rows[k][c]
  {
    var r := Clean(f).value;
    var prices := Column(f, Price);
    var units := Column(f, Units);
    forall k | 0 <= k < |r.rows|
      ensures prices[k].Num? && prices[k].x != 0.0 ==> r.rows[k][Price] == f.rows[k][Price]
      ensures units[k].Num? && units[k].x != 0.0 ==> r.rows[k][Units] == f.rows[k][Units]
      ensures forall c :: c in f.rows[k] && c != Units && c != SalesValue && c != Price ==>
        c in r.rows[k] && r.rows[k][c] == f.rows[k][c]
    {
      CleanRowCells(f.rows[k], CleanColumn(prices)[k], CleanColumn(units)[k]);
      if prices[k].Num? && prices[k].x != 0.0 {
        CleanColumnKeeps(prices, k);
      }
      if units[k].Num? && units[k].x != 0.0 {
        CleanColumnKeeps(units, k);
      }
    }
  }

  /** One non-zero price (at row `j`) is enough for cleaning to leave no
      missing price. */
  lemma CleanFillsPrices(f: Frame, j: int)
    requires WellFormed(f) && Clean(f).Success?
    requires 0 <= j < |f.rows| && f.rows[j][Price].Num? && f.rows[j][Price].x != 0.0
    ensures forall k :: 0 <= k < |Clean(f).value.rows| ==> Clean(f).value.rows[k][Price].Num?
  {
    var r := Clean(f).value;
    var prices := Column(f, Price);
    CleanColumnFull(prices, j);
    forall k | 0 <= k < |r.rows|
      ensures r.rows[k][Price].Num?
    {
      CleanRowCells(f.rows[k], CleanColumn(prices)[k], CleanColumn(Column(f, Units))[k]);
    }
  }

  /** One non-zero unit count (at row `j`) is enough for cleaning to leave
      no missing unit count. */
  lemma CleanFillsUnits(f: Frame, j: int)
    requires WellFormed(f) && Clean(f).Success?
    requires 0 <= j < |f.rows| && f.rows[j][Units].Num? && f.rows[j][Units].x != 0.0
    ensures forall k :: 0 <= k < |Clean(f).value.rows| ==> Clean(f).value.rows[k][Units].Num?
  {
    var r := Clean(f).value;
    var units := Column(f, Units);
    CleanColumnFull(units, j);
    forall k | 0 <= k < |r.rows|
      ensures r.rows[k][Units].Num?
    {
      CleanRowCells(f.rows[k], CleanColumn(Column(f, Price))[k], CleanColumn(units)[k]);
    }
  }

  /** Cleaning a cleaned table changes nothing. */
  lemma CleanIdempotent(f: Frame)
    requires WellFormed(f) && Clean(f).Success?
    ensures Clean(f).value.columns == f.columns
    ensures Clean(Clean(f).value) == Clean(f)
  {
    var once := Clean(f).value;
    var prices := CleanColumn(Column(f, Price));
    var units := CleanColumn(Column(f, Units));
    CleanColumnShape(Column(f, Price));
    CleanColumnShape(Column(f, Units));
    CleanColumnIdempotent(Column(f, Price));
    CleanColumnIdempotent(Column(f, Units));
    forall k | 0 <= k < |once.rows|
      ensures once.rows[k][Price] == prices[k] && once.rows[k][Units] == units[k]
    {
      CleanRowCells(f.rows[k], prices[k], units[k]);
    }
    assert Column(once, Price) == prices;
    assert Column(once, Units) == units;
    var twice := CleanFrame(once);
    forall k | 0 <= k < |once.rows|
      ensures twice.rows[k] == once.rows[k]
    {
      CleanRowTwice(f.rows[k], prices[k], units[k]);
    }
    assert twice.rows == once.rows;
  }

  /** A table with no zero or missing price or unit count and a sales value
      already equal to units times price comes out of cleaning unchanged. */
  lemma CleanKeepsCleanTable(f: Frame)
    requires Cleanable(f)
    requires forall k :: 0 <= k < |f.rows| ==> f.rows[k][Units].Num? && f.rows[k][Units].x != 0.0
    requires forall k :: 0 <= k < |f.rows| ==> f.rows[k][Price].Num? && f.rows[k][Price].x != 0.0
    requires forall k :: 0 <= k < |f.rows| ==> f.rows[k][SalesValue] == Product(f.rows[k][Units], f.rows[k][Price])
    ensures Clean(f) == Success(f)
  {
    var r := CleanFrame(f);
    var prices := Column(f, Price);
    var units := Column(f, Units);
    forall k | 0 <= k < |f.rows|
      ensures r.rows[k] == f.rows[k]
    {
      CleanColumnKeeps(prices, k);
      CleanColumnKeeps(units, k);
      CleanRowUnchanged(f.rows[k], prices[k], units[k]);
    }
    assert r.rows == f.rows;
  }
}

=== FILE: events.dfy ===
/** `label_special_events`: flag the rows whose value lies strictly above
    the upper Tukey fence `Q3 + 1.5 * (Q3 - Q1)` of the column. */
module Events {
  import opened Results
  import opened Frames
  import opened Quantiles

  /** The name of the flag column added for `column`. */
  function FlagColumn(column: string): string {
    "EventoEspecial_" + column
  }

  /** The numbers of a column, top to bottom, skipping missing cells: what
      `Series.quantile` looks at.  Each number occurs as often as the column
      holds it. */
  function Values(cells: seq<Cell>): (r: seq<real>)
    ensures forall v :: multiset(r)[v] == multiset(cells)[Num(v)]
  {
    if |cells| == 0 then []
    else
      assert cells == [cells[0]] + cells[1..];
      var rest := Values(cells[1..]);
      if cells[0].Num? then [cells[0].x] + rest else rest
  }

  /** A number is among the values exactly when some cell holds it. */
  lemma ValuesMembers(cells: seq<Cell>)
    ensures forall k :: 0 <= k < |cells| && cells[k].Num? ==> cells[k].x in Values(cells)
    ensures forall v :: v in Values(cells) ==> exists k :: 0 <= k < |cells| && cells[k] == Num(v)
  {
    var r := Values(cells);
    forall k | 0 <= k < |cells| && cells[k].Num?
      ensures cells[k].x in r
    {
      assert cells[k] in multiset(cells);
      assert multiset(r)[cells[k].x] > 0;
    }
    forall v | v in r
      ensures exists k :: 0 <= k < |cells| && cells[k] == Num(v)
    {
      assert multiset(cells)[Num(v)] > 0;
      assert Num(v) in cells;
    }
  }

  /** The upper fence, or `None` (pandas' `NaN`) when the column holds no
      number at all. */
  function Fence(cells: seq<Cell>): Option<real> {
    SortedFence(Sort(Values(cells)))
  }

  /** The fence of values already in ascending order. */
  function SortedFence(sorted: seq<real>): Option<real>
    requires Sorted(sorted)
  {
    if |sorted| == 0 then None
    else
      Some(UpperFence(Quantile(sorted, 0.25), Quantile(sorted, 0.75)))
  }

  /** Tukey's upper fence over the quartiles `q1` and `q3`. */
  function UpperFence(q1: real, q3: real): real {
    q3 + 1.5 * (q3 - q1)
  }

  /** There is a fence exactly when the column holds a number. */
  lemma FenceDefined(cells: seq<Cell>)
    ensures Fence(cells).Some? <==> exists k :: 0 <= k < |cells| && cells[k].Num?
  {
    var values := Values(cells);
    var sorted := Sort(values);
    ValuesMembers(cells);
    if |sorted| == 0 {
      assert |values| == 0;
    } else {
      assert sorted[0] in multiset(values);
      assert sorted[0] in values;
    }
  }

  /** `(value > fence).astype(int)`: a missing value or a missing fence
      compares false. */
  function Flag(cell: Cell, fence: Option<real>): Cell {
    if cell.Num? && fence.Some? && cell.x > fence.value then Num(1.0) else Num(0.0)
  }

  function Flags(cells: seq<Cell>, fence: Option<real>): (r: seq<Cell>)
    ensures |r| == |cells|
    ensures forall k :: 0 <= k < |r| ==> r[k] == Flag(cells[k], fence)
  {
    seq(|cells|, k requires 0 <= k < |cells| => Flag(cells[k], fence))
  }

  /** Label the rows of `f` by the fence of `column`.  A column that does
      not exist fails as a key error, and one holding text fails in the
      quantile computation. */
  function LabelSpecialEvents(f: Frame, column: string): (r: Result<Frame>)
    requires WellFormed(f)
    ensures r.Success? <==> column in f.columns && NumericCells(Column(f, column))
    ensures r.Failure? ==> r.error == MissingColumn(column) || r.error == NotNumeric(column)
    ensures r.Success? ==>
      && WellFormed(r.value)
      && r.value.columns == (if FlagColumn(column) in f.columns then f.columns else f.columns + [FlagColumn(column)])
      && |r.value.rows| == |f.rows|
    ensures r.Success? ==> forall k, c :: 0 <= k < |f.rows| && c in f.rows[k] && c != FlagColumn(column) ==>
      c in r.value.rows[k] && r.value.rows[k][c] == f.rows[k][c]
    ensures r.Success? ==> var fence := Fence(Column(f, column));
      forall k :: 0 <= k < |f.rows| ==>
        && column in f.rows[k] && FlagColumn(column) in r.value.rows[k]
        && (r.value.rows[k][FlagColumn(column)] == Num(1.0) <==>
              f.rows[k][column].Num? && fence.Some? && f.rows[k][column].x > fence.value)
        && (r.value.rows[k][FlagColumn(column)] == Num(1.0) || r.value.rows[k][FlagColumn(column)] == Num(0.0))
  {
    if column !in f.columns then Failure(MissingColumn(column))
    else if !NumericCells(Column(f, column)) then Failure(NotNumeric(column))
    else Success(Labelled(f, column))
  }

  /** `df[FlagColumn(column)] = flags` for the flags of an existing column. */
  function Labelled(f: Frame, column: string): (g: Frame)
    requires WellFormed(f) && column in f.columns
    ensures WellFormed(g)
    ensures g.columns == (if FlagColumn(column) in f.columns then f.columns else f.columns + [FlagColumn(column)])
    ensures |g.rows| == |f.rows|
    ensures forall k, c :: 0 <= k < |f.rows| && c in f.rows[k] && c != FlagColumn(column) ==>
      c in g.rows[k] && g.rows[k][c] == f.rows[k][c]
    ensures forall k :: 0 <= k < |f.rows| ==>
      && column in f.rows[k] && FlagColumn(column) in g.rows[k]
      && g.rows[k][FlagColumn(column)] == Flag(f.rows[k][column], Fence(Column(f, column)))
  {
    var cells := Column(f, column);
    assert forall k :: 0 <= k < |f.rows| ==> column in f.rows[k] && f.rows[k][column] == cells[k];
    WithFlags(f, FlagColumn(column), cells, Fence(cells))
  }

  /** The table with the flags of `cells` against `fence` in column
      `name`. */
  function WithFlags(f: Frame, name: string, cells: seq<Cell>, fence: Option<real>): (g: Frame)
    requires WellFormed(f) && |cells| == |f.rows|
    ensures WellFormed(g)
    ensures g.columns == (if name in f.columns then f.columns else f.columns + [name])
    ensures |g.rows| == |f.rows|
    ensures forall k, c :: 0 <= k < |f.rows| && c in f.rows[k] && c != name ==>
      c in g.rows[k] && g.rows[k][c] == f.rows[k][c]
    ensures forall k :: 0 <= k < |f.rows| ==> name in g.rows[k] && g.rows[k][name] == Flag(cells[k], fence)
  {
    SetColumn(f, name, Flags(cells, fence))
  }

  /** The fence is at least the third quartile, which is at least the first
      quartile, which is at least the smallest value. */
  lemma FenceAboveQuartiles(cells: seq<Cell>)
    requires Fence(cells).Some?
    ensures var sorted := Sort(Values(cells));
      && |sorted| > 0
      && sorted[0] <= Quantile(sorted, 0.25) <= Quantile(sorted, 0.75) <= Fence(cells).value
  {
    var sorted := Sort(Values(cells));
    QuantileBetween(sorted, 0.25);
    QuantileMonotone(sorted, 0.25, 0.75);
  }

  /** No value at or below the third quartile is flagged; in particular the
      smallest value of the column never is. */
  lemma AtMostQ3NotFlagged(cells: seq<Cell>, k: int)
    requires 0 <= k < |cells| && cells[k].Num?
    ensures var sorted := Sort(Values(cells));
      |sorted| > 0 && (cells[k].x <= Quantile(sorted, 0.75) ==> Flag(cells[k], Fence(cells)) == Num(0.0))
  {
    FenceAboveQuartiles(cells);
  }

  /** The smallest number of the column is never flagged. */
  lemma MinimumNotFlagged(cells: seq<Cell>, k: int)
    requires 0 <= k < |cells| && cells[k].Num?
    requires forall j :: 0 <= j < |cells| && cells[j].Num? ==> cells[k].x <= cells[j].x
    ensures Flag(cells[k], Fence(cells)) == Num(0.0)
  {
    var values := Values(cells);
    var sorted := Sort(values);
    ValuesMembers(cells);
    FenceAboveQuartiles(cells);
    assert sorted[0] in multiset(values);
    assert sorted[0] in values;
    var j :| 0 <= j < |cells| && cells[j] == Num(sorted[0]);
    assert cells[k].x <= sorted[0];
  }

  /** Flags are upward closed: a value at least as large as a flagged one is
      flagged too. */
  lemma FlagsUpwardClosed(cells: seq<Cell>, i: int, j: int)
    requires 0 <= i < |cells| && 0 <= j < |cells|
    requires cells[i].Num? && cells[j].Num? && cells[i].x <= cells[j].x
    requires Flag(cells[i], Fence(cells)) == Num(1.0)
    ensures Flag(cells[j], Fence(cells)) == Num(1.0)
  {
  }

  /** The fence depends only on which numbers the column holds, with their
      multiplicities, and not on the order of the rows. */
  lemma FenceOrderFree(a: seq<Cell>, b: seq<Cell>)
    requires multiset(Values(a)) == multiset(Values(b))
    ensures Fence(a) == Fence(b)
  {
    SortPermutationInvariant(Values(a), Values(b));
  }

  /** The flag the labelled table gives row `k`: the flag of that row's
      cell against the fence of the whole column. */
  function LabelAt(f: Frame, column: string, k: int): (flag: Cell)
    requires WellFormed(f) && LabelSpecialEvents(f, column).Success? && 0 <= k < |f.rows|
    ensures column in f.columns
    ensures flag == Flag(Column(f, column)[k], Fence(Column(f, column)))
  {
    LabelSpecialEvents(f, column).value.rows[k][FlagColumn(column)]
  }

  /** On the labelled table: a row whose value is at least that of a
      flagged row is flagged too. */
  lemma LabelsUpwardClosed(f: Frame, column: string, i: int, j: int)
    requires WellFormed(f) && LabelSpecialEvents(f, column).Success?
    requires 0 <= i < |f.rows| && 0 <= j < |f.rows|
    requires var cells := Column(f, column);
      cells[i].Num? && cells[j].Num? && cells[i].x <= cells[j].x
    requires LabelAt(f, column, i) == Num(1.0)
    ensures LabelAt(f, column, j) == Num(1.0)
  {
    FlagsUpwardClosed(Column(f, column), i, j);
  }

  /** On the labelled table: the row holding the smallest value of the
      column is never flagged. */
  lemma MinimumNotLabelled(f: Frame, column: string, k: int)
    requires WellFormed(f) && LabelSpecialEvents(f, column).Success?
    requires 0 <= k < |f.rows|
    requires var cells := Column(f, column);
      cells[k].Num? && forall j :: 0 <= j < |cells| && cells[j].Num? ==> cells[k].x <= cells[j].x
    ensures LabelAt(f, column, k) == Num(0.0)
  {
    MinimumNotFlagged(Column(f, column), k);
  }

  /** One cell in another unit: a number sent through `f`, anything else
      left alone. */
  function MapCell(cell: Cell, f: real -> real): Cell {
    if cell.Num? then Num(f(cell.x)) else cell
  }

  /** A whole column in another unit. */
  function MapCells(cells: seq<Cell>, f: real -> real): (r: seq<Cell>)
    ensures |r| == |cells|
    ensures forall i :: 0 <= i < |cells| ==> r[i] == MapCell(cells[i], f)
  {
    seq(|cells|, i requires 0 <= i < |cells| => MapCell(cells[i], f))
  }

  /** The numbers of the column in another unit are its numbers in that
      unit, in the same order. */
  lemma {:induction false} ValuesMapped(cells: seq<Cell>, f: real -> real)
    ensures Values(MapCells(cells, f)) == Mapped(Values(cells), f)
  {
    if |cells| > 0 {
      var mapped := MapCells(cells, f);
      assert mapped[1..] == MapCells(cells[1..], f);
      ValuesMapped(cells[1..], f);
      if cells[0].Num? {
        MappedCons(cells[0].x, Values(cells[1..]), f);
      }
    }
  }

  /** The fence is an interpolation between the quartiles, with the
      fraction `-1.5`. */
  lemma UpperFenceIsLerp(q1: real, q3: real)
    ensures UpperFence(q1, q3) == Lerp(q3, q1, -1.5)
  {
  }

  /** Measuring the column in another unit moves the fence into that
      unit, for any change of unit that keeps the order and commutes with
      interpolation. */
  lemma FenceMapped(cells: seq<Cell>, f: real -> real)
    requires OrderPreserving(f) && Affine(f)
    ensures Fence(MapCells(cells, f)).Some? <==> Fence(cells).Some?
    ensures Fence(cells).Some? ==> Fence(MapCells(cells, f)).value == f(Fence(cells).value)
  {
    var sorted := Sort(Values(cells));
    ValuesMapped(cells, f);
    SortMapped(Values(cells), f);
    if |sorted| > 0 {
      var q1 := Quantile(sorted, 0.25);
      var q3 := Quantile(sorted, 0.75);
      QuantileMapped(sorted, 0.25, f);
      QuantileMapped(sorted, 0.75, f);
      UpperFenceIsLerp(q1, q3);
      UpperFenceIsLerp(f(q1), f(q3));
      assert f(Lerp(q3, q1, -1.5)) == Lerp(f(q3), f(q1), -1.5);
    }
  }

  /** The flags do not depend on the unit the column is measured in. */
  lemma FlagsMapped(cells: seq<Cell>, f: real -> real)
    requires OrderPreserving(f) && Affine(f)
    ensures Flags(MapCells(cells, f), Fence(MapCells(cells, f))) == Flags(cells, Fence(cells))
  {
    var mapped := MapCells(cells, f);
    FenceMapped(cells, f);
    forall i | 0 <= i < |cells|
      ensures Flag(mapped[i], Fence(mapped)) == Flag(cells[i], Fence(cells))
    {
      if cells[i].Num? && Fence(cells).Some? {
        assert cells[i].x <= Fence(cells).value <==> f(cells[i].x) <= f(Fence(cells).value);
      }
    }
  }

  /** The same rows are special events whether sales are counted in pesos
      or in thousands of pesos: multiplying the column by a positive
      factor changes no flag. */
  lemma FlagsScaleInvariant(cells: seq<Cell>, k: real)
    requires k > 0.0
    ensures Flags(MapCells(cells, Times(k)), Fence(MapCells(cells, Times(k)))) == Flags(cells, Fence(cells))
  {
    TimesOrderPreserving(k);
    TimesAffine(k);
    FlagsMapped(cells, Times(k));
  }

  /** On labelled tables: a table whose column is the same column
      multiplied by a positive factor gets the same label on every row. */
  lemma LabelsScaleInvariant(f: Frame, g: Frame, column: string, k: real, i: int)
    requires WellFormed(f) && WellFormed(g) && k > 0.0
    requires LabelSpecialEvents(f, column).Success? && column in g.columns
    requires Column(g, column) == MapCells(Column(f, column), Times(k))
    requires 0 <= i < |f.rows|
    ensures LabelSpecialEvents(g, column).Success?
    ensures LabelAt(g, column, i) == LabelAt(f, column, i)
  {
    var cells := Column(f, column);
    assert NumericCells(Column(g, column)) by {
      forall j | 0 <= j < |cells|
        ensures Column(g, column)[j].Num? || Column(g, column)[j].Missing?
      {
        assert cells[j].Num? || cells[j].Missing?;
      }
    }
    FlagsScaleInvariant(cells, k);
    assert Flags(cells, Fence(cells))[i] == Flag(cells[i], Fence(cells));
  }
}

=== FILE: frames.dfy ===
/** A pandas DataFrame as the enrichment stage uses it: an ordered list of
    distinct column names and a sequence of rows, each row mapping every
    column name to a cell. */
module Frames {

  /** One cell.  `Missing` stands for both `NaN` and `pd.NA`; numbers are
      exact reals in place of 64-bit floats. */
  datatype Cell = Num(x: real) | Text(s: string) | Day(ordinal: int) | Missing

  type Row = map<string, Cell>

  datatype Frame = Frame(columns: seq<string>, rows: seq<Row>)

  function Names(columns: seq<string>): set<string> {
    set c | c in columns
  }

  predicate Distinct(columns: seq<string>) {
    forall i, j :: 0 <= i < j < |columns| ==> columns[i] != columns[j]
  }

  /** Column names are distinct and every row has exactly those columns. */
  predicate WellFormed(f: Frame) {
    && Distinct(f.columns)
    && forall k :: 0 <= k < |f.rows| ==> f.rows[k].Keys == Names(f.columns)
  }

  /** Every cell is a number or missing, so pandas can do arithmetic and
      statistics on the column. */
  predicate NumericCells(cells: seq<Cell>) {
    forall k :: 0 <= k < |cells| ==> cells[k].Num? || cells[k].Missing?
  }

  /** `df[name]`: the cells of one column, top to bottom. */
  function Column(f: Frame, name: string): (cells: seq<Cell>)
    requires WellFormed(f) && name in f.columns
    ensures |cells| == |f.rows|
    ensures forall k :: 0 <= k < |cells| ==> cells[k] == f.rows[k][name]
  {
    seq(|f.rows|, k requires 0 <= k < |f.rows| => f.rows[k][name])
  }

  /** `df[name] = cells`: overwrite the column, or append it after the
      existing ones when the frame has no column of that name. */
  function SetColumn(f: Frame, name: string, cells: seq<Cell>): (r: Frame)
    requires WellFormed(f) && |cells| == |f.rows|
    ensures WellFormed(r)
    ensures r.columns == if name in f.columns then f.columns else f.columns + [name]
    ensures |r.rows| == |f.rows|
    ensures forall k :: 0 <= k < |r.rows| ==> r.rows[k][name] == cells[k]
    ensures forall k, c :: 0 <= k < |r.rows| && c in f.rows[k] && c != name ==> c in r.rows[k] && r.rows[k][c] == f.rows[k][c]
  {
    var columns := if name in f.columns then f.columns else f.columns + [name];
    assert Names(columns) == Names(f.columns) + {name};
    Frame(columns, seq(|f.rows|, k requires 0 <= k < |f.rows| => f.rows[k][name := cells[k]]))
  }

  /** The columns of `columns` other than `name`, in order. */
  function Without(columns: seq<string>, name: string): (r: seq<string>)
    ensures Names(r) == Names(columns) - {name}
    ensures Distinct(columns) ==> Distinct(r)
    ensures forall c :: c in r ==> c in columns
  {
    if |columns| == 0 then []
    else
      assert columns == [columns[0]] + columns[1..];
      assert Names(columns) == {columns[0]} + Names(columns[1..]);
      var rest := Without(columns[1..], name);
      if columns[0] == name then rest
      else
        assert Names([columns[0]] + rest) == {columns[0]} + Names(rest);
        [columns[0]] + rest
  }

  /** `df.drop(columns=[name])` on a frame that has that column. */
  function DropColumn(f: Frame, name: string): (r: Frame)
    requires WellFormed(f) && name in f.columns
    ensures WellFormed(r)
    ensures name !in r.columns && Names(r.columns) == Names(f.columns) - {name}
    ensures |r.rows| == |f.rows|
    ensures forall k :: 0 <= k < |r.rows| ==> r.rows[k] == f.rows[k] - {name}
  {
    Frame(Without(f.columns, name), seq(|f.rows|, k requires 0 <= k < |f.rows| => f.rows[k] - {name}))
  }
}

=== FILE: holidays.dfy ===
/** `check_week_for_holiday`: whether any day of an ISO week is a public
    holiday, asking the holiday service one date at a time.  The service is
    the function `lookup`, which gives the response to the request for one
    date; the request itself (URL, API key, country "MX") is not modelled. */
module Holidays {
  import opened Results
  import opened Weeks

  /** The service's answer for one date: the HTTP status and the list found
      under `response.holidays` in the body (empty when either key is
      absent). */
  datatype Response = Response(status: int, holidays: seq<string>)

  /** A date counts as a holiday only on status 200 with a non-empty list;
      any other status reads as "no holiday". */
  predicate ReportsHoliday(r: Response) {
    r.status == 200 && |r.holidays| > 0
  }

  /** The holiday flag of a list of dates: 1 when some date reports a
      holiday, 0 otherwise. */
  function HolidayFlag(dates: seq<int>, lookup: int -> Response): (flag: int)
    ensures flag == 0 || flag == 1
    ensures flag == 1 <==> exists i :: 0 <= i < |dates| && ReportsHoliday(lookup(dates[i]))
  {
    if |dates| == 0 then 0
    else if ReportsHoliday(lookup(dates[0])) then 1
    else
      var rest := HolidayFlag(dates[1..], lookup);
      assert forall i :: 1 <= i < |dates| ==> dates[i] == dates[1..][i - 1];
      rest
  }

  /** The loop of `check_week_for_holiday`.  `queried` lists the dates the
      service was asked about, in order: the week up to and including the
      first holiday, or all seven days when there is none. */
  method CheckWeekForHoliday(anio: int, semana: int, lookup: int -> Response)
    returns (r: Result<int>, queried: seq<int>)
    ensures WeekDates(anio, semana).Failure? ==>
      r == Failure(WeekDates(anio, semana).error) && queried == []
    ensures WeekDates(anio, semana).Success? ==>
      var dates := WeekDates(anio, semana).value;
      && r == Success(HolidayFlag(dates, lookup))
      && 1 <= |queried| <= |dates|
      && queried == dates[..|queried|]
      && (forall j :: 0 <= j < |queried| - 1 ==> !ReportsHoliday(lookup(queried[j])))
      && (r.value == 1 <==> ReportsHoliday(lookup(queried[|queried| - 1])))
      && (r.value == 0 ==> queried == dates)
  {
    var week := WeekDates(anio, semana);
    if week.Failure? {
      return Failure(week.error), [];
    }
    var dates := week.value;
    queried := [];
    var i := 0;
    while i < |dates|
      invariant 0 <= i <= |dates|
      invariant queried == dates[..i]
      invariant forall j :: 0 <= j < i ==> !ReportsHoliday(lookup(dates[j]))
    {
      queried := queried + [dates[i]];
      var response := lookup(dates[i]);
      if response.status == 200 && |response.holidays| > 0 {
        return Success(1), queried;
      }
      i := i + 1;
    }
    return Success(0), queried;
  }

  /** More holidays never clear the flag: if every date `lookup` reports is
      also reported by `lookup'`, the flag under `lookup'` is at least as
      high. */
  lemma HolidayFlagMonotone(dates: seq<int>, lookup: int -> Response, lookup': int -> Response)
    requires forall d :: ReportsHoliday(lookup(d)) ==> ReportsHoliday(lookup'(d))
    ensures HolidayFlag(dates, lookup) <= HolidayFlag(dates, lookup')
  {
    if HolidayFlag(dates, lookup) == 1 {
      var i :| 0 <= i < |dates| && ReportsHoliday(lookup(dates[i]));
      var d := dates[i];
      assert ReportsHoliday(lookup(d));
      assert ReportsHoliday(lookup'(d));
    }
  }
}

=== FILE: join.dfy ===
/** `add_food_spending_percentage`: a left merge of the sales table with the
    socioeconomic reference table on `Nivel Socioeconomico` = `NSE`, after
    which the `NSE` column is dropped. */
module Join {
  import opened Results
  import opened Frames

  const LevelColumn := "Nivel Socioeconomico"
  const KeyColumn := "NSE"

  /** The cell a row holds under `on`; every row of a well-formed frame
      that has the column holds one. */
  function KeyOf(row: Row, on: string): Cell {
    if on in row then row[on] else Missing
  }

  /** The right rows whose key equals `key`, in their order.  Two missing
      keys match, as they do in a pandas merge. */
  function Matches(rows: seq<Row>, on: string, key: Cell): (r: seq<Row>)
    ensures |r| <= |rows|
    ensures forall m :: m in r ==> m in rows && KeyOf(m, on) == key
    ensures forall j :: 0 <= j < |rows| && KeyOf(rows[j], on) == key ==> rows[j] in r
  {
    if |rows| == 0 then []
    else
      var rest := Matches(rows[1..], on, key);
      assert forall j :: 1 <= j < |rows| ==> rows[j] == rows[1..][j - 1];
      if KeyOf(rows[0], on) == key then [rows[0]] + rest else rest
  }

  /** A row of missing cells for the given columns. */
  function Blank(columns: seq<string>): (r: Row)
    ensures r.Keys == Names(columns)
    ensures forall c :: c in r ==> r[c] == Missing
  {
    map c | c in Names(columns) :: Missing
  }

  /** The output rows for one left row: the row joined with each matching
      right row, or with missing cells when nothing matches. */
  function JoinOne(row: Row, matches: seq<Row>, rightColumns: seq<string>): (r: seq<Row>)
    ensures |r| == if |matches| == 0 then 1 else |matches|
  {
    if |matches| == 0 then [row + Blank(rightColumns)]
    else seq(|matches|, j requires 0 <= j < |matches| => row + matches[j])
  }

  /** The rows of a left merge, group by group in the order of the left
      rows. */
  function JoinRows(leftRows: seq<Row>, right: Frame, leftOn: string, rightOn: string): (r: seq<Row>)
    ensures |r| >= |leftRows|
  {
    if |leftRows| == 0 then []
    else
      JoinOne(leftRows[0], Matches(right.rows, rightOn, KeyOf(leftRows[0], leftOn)), right.columns)
        + JoinRows(leftRows[1..], right, leftOn, rightOn)
  }

  /** Merging a table cut in two is merging each part, one after the other:
      the merge keeps the order of the left rows. */
  lemma {:induction false} JoinRowsAppend(a: seq<Row>, b: seq<Row>, right: Frame, leftOn: string, rightOn: string)
    ensures JoinRows(a + b, right, leftOn, rightOn) == JoinRows(a, right, leftOn, rightOn) + JoinRows(b, right, leftOn, rightOn)
  {
    if |a| == 0 {
      assert a + b == b;
    } else {
      assert (a + b)[0] == a[0];
      assert (a + b)[1..] == a[1..] + b;
      JoinRowsAppend(a[1..], b, right, leftOn, rightOn);
    }
  }

  /** No two right rows share a key. */
  predicate UniqueKeys(rows: seq<Row>, on: string) {
    forall i, j :: 0 <= i < j < |rows| ==> KeyOf(rows[i], on) != KeyOf(rows[j], on)
  }

  /** No row holds the key, so nothing matches. */
  lemma NoMatches(rows: seq<Row>, on: string, key: Cell)
    requires forall j :: 0 <= j < |rows| ==> KeyOf(rows[j], on) != key
    ensures Matches(rows, on, key) == []
  {
  }

  /** With unique keys a left row matches at most one right row. */
  lemma {:induction false} UniqueMatch(rows: seq<Row>, on: string, key: Cell)
    requires UniqueKeys(rows, on)
    ensures |Matches(rows, on, key)| <= 1
  {
    if |rows| > 0 {
      assert UniqueKeys(rows[1..], on) by {
        forall i, j | 0 <= i < j < |rows| - 1
          ensures KeyOf(rows[1..][i], on) != KeyOf(rows[1..][j], on)
        {
          assert rows[1..][i] == rows[i + 1] && rows[1..][j] == rows[j + 1];
        }
      }
      UniqueMatch(rows[1..], on, key);
      if KeyOf(rows[0], on) == key {
        forall j | 0 <= j < |rows[1..]|
          ensures KeyOf(rows[1..][j], on) != key
        {
          assert rows[1..][j] == rows[j + 1];
        }
        NoMatches(rows[1..], on, key);
      }
    }
  }

  /** What a left row gains from the right table: the matching right row,
      or missing cells when nothing matches. */
  function Gained(row: Row, right: Frame, leftOn: string, rightOn: string): Row {
    var matches := Matches(right.rows, rightOn, KeyOf(row, leftOn));
    if |matches| == 0 then Blank(right.columns) else matches[0]
  }

  /** Whatever a row gains, it has the columns of the right table. */
  lemma GainedKeys(row: Row, right: Frame, leftOn: string, rightOn: string)
    requires WellFormed(right)
    ensures Gained(row, right, leftOn, rightOn).Keys == Names(right.columns)
  {
    var matches := Matches(right.rows, rightOn, KeyOf(row, leftOn));
    if |matches| > 0 {
      assert matches[0] in matches;
    }
  }

  /** With unique right keys the merge has one output row per left row, in
      the same order, each the left row joined with what it gains. */
  lemma {:induction false} JoinRowsUnique(leftRows: seq<Row>, right: Frame, leftOn: string, rightOn: string)
    requires UniqueKeys(right.rows, rightOn)
    ensures |JoinRows(leftRows, right, leftOn, rightOn)| == |leftRows|
    ensures forall k :: 0 <= k < |leftRows| ==>
      JoinRows(leftRows, right, leftOn, rightOn)[k] == leftRows[k] + Gained(leftRows[k], right, leftOn, rightOn)
  {
    if |leftRows| > 0 {
      UniqueMatch(right.rows, rightOn, KeyOf(leftRows[0], leftOn));
      JoinRowsUnique(leftRows[1..], right, leftOn, rightOn);
      var rows := JoinRows(leftRows, right, leftOn, rightOn);
      forall k | 1 <= k < |leftRows|
        ensures rows[k] == leftRows[k] + Gained(leftRows[k], right, leftOn, rightOn)
      {
        assert leftRows[1..][k - 1] == leftRows[k];
      }
    }
  }

  /** The columns shared by no two of the frames. */
  predicate Disjoint(a: seq<string>, b: seq<string>) {
    forall c :: c in a ==> c !in b
  }

  lemma ConcatColumns(a: seq<string>, b: seq<string>)
    requires Distinct(a) && Distinct(b) && Disjoint(a, b)
    ensures Distinct(a + b) && Names(a + b) == Names(a) + Names(b)
  {
    forall i, j | 0 <= i < j < |a + b|
      ensures (a + b)[i] != (a + b)[j]
    {
      if j >= |a| && i < |a| {
        assert (a + b)[j] in b;
      }
    }
  }

  /** `pd.merge(left, right, how="left", left_on=leftOn, right_on=rightOn)`
      when the two tables share no column name. */
  function LeftJoin(left: Frame, right: Frame, leftOn: string, rightOn: string): (r: Frame)
    requires WellFormed(left) && WellFormed(right) && Disjoint(left.columns, right.columns)
    ensures WellFormed(r)
    ensures r.columns == left.columns + right.columns
  {
    ConcatColumns(left.columns, right.columns);
    var rows := JoinRows(left.rows, right, leftOn, rightOn);
    assert forall k :: 0 <= k < |rows| ==> rows[k].Keys == Names(left.columns + right.columns) by {
      JoinRowsKeys(left.rows, right, leftOn, rightOn, Names(left.columns));
    }
    Frame(left.columns + right.columns, rows)
  }

  /** Every merged row has the left columns and the right columns. */
  lemma {:induction false} JoinRowsKeys(leftRows: seq<Row>, right: Frame, leftOn: string, rightOn: string, leftNames: set<string>)
    requires WellFormed(right)
    requires forall k :: 0 <= k < |leftRows| ==> leftRows[k].Keys == leftNames
    ensures forall k :: 0 <= k < |JoinRows(leftRows, right, leftOn, rightOn)| ==>
      JoinRows(leftRows, right, leftOn, rightOn)[k].Keys == leftNames + Names(right.columns)
  {
    if |leftRows| > 0 {
      var matches := Matches(right.rows, rightOn, KeyOf(leftRows[0], leftOn));
      var group := JoinOne(leftRows[0], matches, right.columns);
      forall j | 0 <= j < |matches|
        ensures matches[j].Keys == Names(right.columns)
      {
        assert matches[j] in matches;
      }
      assert forall k :: 0 <= k < |group| ==> group[k].Keys == leftNames + Names(right.columns);
      JoinRowsKeys(leftRows[1..], right, leftOn, rightOn, leftNames);
    }
  }

  /** Removing a column that only the second part holds. */
  lemma {:induction false} WithoutAppend(a: seq<string>, b: seq<string>, name: string)
    requires name !in a
    ensures Without(a + b, name) == a + Without(b, name)
  {
    if |a| == 0 {
      assert a + b == b;
    } else {
      calc {
        Without(a + b, name);
      == { assert (a + b)[0] == a[0] && (a + b)[1..] == a[1..] + b; }
        [a[0]] + Without(a[1..] + b, name);
      == { WithoutAppend(a[1..], b, name); }
        [a[0]] + (a[1..] + Without(b, name));
      == { assert a == [a[0]] + a[1..]; }
        a + Without(b, name);
      }
    }
  }

  /** `add_food_spending_percentage(df, nse_data)`: merge, then drop `NSE`.
      Either key column may be absent, which pandas reports as a key
      error. */
  function AddFoodSpendingPercentage(df: Frame, nse: Frame): (r: Result<Frame>)
    requires WellFormed(df) && WellFormed(nse) && Disjoint(df.columns, nse.columns)
    ensures r.Success? <==>
      && LevelColumn in df.columns && KeyColumn in nse.columns
      && !KeyTypesClash(Column(df, LevelColumn), Column(nse, KeyColumn))
    ensures LevelColumn !in df.columns ==> r == Failure(MissingColumn(LevelColumn))
    ensures LevelColumn in df.columns && KeyColumn !in nse.columns ==> r == Failure(MissingColumn(KeyColumn))
    ensures r.Failure? && LevelColumn in df.columns && KeyColumn in nse.columns ==> r.error == KeyTypeMismatch
    ensures r.Success? ==>
      && WellFormed(r.value)
      && KeyColumn !in r.value.columns
      && r.value.columns == df.columns + Without(nse.columns, KeyColumn)
      && |r.value.rows| >= |df.rows|
  {
    if LevelColumn !in df.columns then Failure(MissingColumn(LevelColumn))
    else if KeyColumn !in nse.columns then Failure(MissingColumn(KeyColumn))
    else if KeyTypesClash(Column(df, LevelColumn), Column(nse, KeyColumn)) then Failure(KeyTypeMismatch)
    else
      WithoutAppend(df.columns, nse.columns, KeyColumn);
      Success(DropColumn(LeftJoin(df, nse, LevelColumn, KeyColumn), KeyColumn))
  }

  /** Some cell of the column is text, so pandas stores it as strings. */
  predicate HasText(cells: seq<Cell>) {
    exists k :: 0 <= k < |cells| && cells[k].Text?
  }

  /** A column with at least one row and only numbers or missing cells,
      which pandas stores as a numeric column. */
  predicate NumericKeys(cells: seq<Cell>) {
    |cells| > 0 && NumericCells(cells)
  }

  /** `pd.merge` refuses to match a text key column against a numeric one,
      in either order, and raises instead of joining. */
  predicate KeyTypesClash(left: seq<Cell>, right: seq<Cell>) {
    (HasText(left) && NumericKeys(right)) || (NumericKeys(left) && HasText(right))
  }

  /** Two key columns that both hold text never clash: the usual case of
      level names such as `"A/B"` on both sides. */
  lemma TextKeysMerge(left: seq<Cell>, right: seq<Cell>)
    requires HasText(left) && HasText(right)
    ensures !KeyTypesClash(left, right)
  {
    var i :| 0 <= i < |left| && left[i].Text?;
    var j :| 0 <= j < |right| && right[j].Text?;
    assert !NumericCells(left);
    assert !NumericCells(right);
  }

  /** With unique keys, the key a row holds matches exactly that row. */
  lemma MatchesUnique(rows: seq<Row>, on: string, j: int)
    requires UniqueKeys(rows, on) && 0 <= j < |rows|
    ensures Matches(rows, on, KeyOf(rows[j], on)) == [rows[j]]
  {
    UniqueMatch(rows, on, KeyOf(rows[j], on));
  }

  /** With unique `NSE` keys the merged table keeps the row count and order
      of the sales table, and each row keeps every field it had. */
  lemma FoodSpendingKeepsRows(df: Frame, nse: Frame)
    requires WellFormed(df) && WellFormed(nse) && Disjoint(df.columns, nse.columns)
    requires AddFoodSpendingPercentage(df, nse).Success?
    requires UniqueKeys(nse.rows, KeyColumn)
    ensures var r := AddFoodSpendingPercentage(df, nse).value;
      && |r.rows| == |df.rows|
      && forall k, c :: 0 <= k < |df.rows| && c in df.rows[k] ==> c in r.rows[k] && r.rows[k][c] == df.rows[k][c]
  {
    var r := AddFoodSpendingPercentage(df, nse).value;
    JoinRowsUnique(df.rows, nse, LevelColumn, KeyColumn);
    forall k, c | 0 <= k < |df.rows| && c in df.rows[k]
      ensures c in r.rows[k] && r.rows[k][c] == df.rows[k][c]
    {
      FoodSpendingRow(df, nse, k);
      GainedKeys(df.rows[k], nse, LevelColumn, KeyColumn);
      assert c in Names(df.columns);
      assert c !in Names(nse.columns);
    }
  }

  /** A row whose level has an entry gains that entry's fields. */
  lemma FoodSpendingMatched(df: Frame, nse: Frame, k: int, j: int)
    requires WellFormed(df) && WellFormed(nse) && Disjoint(df.columns, nse.columns)
    requires AddFoodSpendingPercentage(df, nse).Success?
    requires UniqueKeys(nse.rows, KeyColumn)
    requires 0 <= k < |df.rows| && 0 <= j < |nse.rows|
    requires nse.rows[j][KeyColumn] == df.rows[k][LevelColumn]
    ensures var r := AddFoodSpendingPercentage(df, nse).value;
      |r.rows| == |df.rows| &&
      forall c :: c in nse.rows[j] && c != KeyColumn ==> c in r.rows[k] && r.rows[k][c] == nse.rows[j][c]
  {
    assert KeyOf(df.rows[k], LevelColumn) == KeyOf(nse.rows[j], KeyColumn);
    MatchesUnique(nse.rows, KeyColumn, j);
    assert Gained(df.rows[k], nse, LevelColumn, KeyColumn) == nse.rows[j];
    FoodSpendingRow(df, nse, k);
  }

  /** A row whose level has no entry gains missing cells. */
  lemma FoodSpendingUnmatched(df: Frame, nse: Frame, k: int)
    requires WellFormed(df) && WellFormed(nse) && Disjoint(df.columns, nse.columns)
    requires AddFoodSpendingPercentage(df, nse).Success?
    requires UniqueKeys(nse.rows, KeyColumn)
    requires 0 <= k < |df.rows|
    requires forall j :: 0 <= j < |nse.rows| ==> nse.rows[j][KeyColumn] != df.rows[k][LevelColumn]
    ensures var r := AddFoodSpendingPercentage(df, nse).value;
      |r.rows| == |df.rows| &&
      forall c :: c in nse.columns && c != KeyColumn ==> c in r.rows[k] && r.rows[k][c] == Missing
  {
    var key := KeyOf(df.rows[k], LevelColumn);
    assert forall j :: 0 <= j < |nse.rows| ==> KeyOf(nse.rows[j], KeyColumn) != key;
    NoMatches(nse.rows, KeyColumn, key);
    assert Gained(df.rows[k], nse, LevelColumn, KeyColumn) == Blank(nse.columns);
    FoodSpendingRow(df, nse, k);
  }

  /** Row `k` of the result is row `k` of the sales table joined with what
      it gains, less the `NSE` key. */
  lemma FoodSpendingRow(df: Frame, nse: Frame, k: int)
    requires WellFormed(df) && WellFormed(nse) && Disjoint(df.columns, nse.columns)
    requires AddFoodSpendingPercentage(df, nse).Success?
    requires UniqueKeys(nse.rows, KeyColumn)
    requires 0 <= k < |df.rows|
    ensures var r := AddFoodSpendingPercentage(df, nse).value;
      && |r.rows| == |df.rows|
      && r.rows[k] == (df.rows[k] + Gained(df.rows[k], nse, LevelColumn, KeyColumn)) - {KeyColumn}
  {
    JoinRowsUnique(df.rows, nse, LevelColumn, KeyColumn);
  }
}

=== FILE: pipeline.dfy ===
/** `process_row` and the enrichment steps of `main`, composed: clean the
    sales columns, add the calendar columns, flag special events in
    `Venta_piezas`, and merge in the food-spending percentage. */
module Pipeline {
  import opened Results
  import opened Calendar
  import opened Frames
  import opened Weeks
  import opened Seasons
  import opened Holidays
  import opened Cleaning
  import opened Events
  import opened Join

  const YearColumn := "Anio"
  const WeekColumn := "Semana"
  const DateColumn := "date"
  const SeasonColumn := "season"
  const HolidayColumn := "holiday"

  /** `int(value)` on a cell: a number is truncated toward zero, as Python
      does for a float; `NaN` and anything else raise. */
  function ToInt(c: Cell): (r: Result<int>)
    ensures r.Success? <==> c.Num?
    ensures r.Success? && c.x >= 0.0 ==> r.value >= 0 && r.value as real <= c.x < r.value as real + 1.0
    ensures r.Success? && c.x < 0.0 ==> r.value <= 0 && r.value as real - 1.0 < c.x <= r.value as real
    ensures r.Failure? ==> r.error == NotAnInteger
  {
    if !c.Num? then Failure(NotAnInteger)
    else if c.x >= 0.0 then Success(c.x.Floor)
    else Success(-((-c.x).Floor))
  }

  /** `int(row["Anio"])`, then `int(row["Semana"])`, in the order the
      format string evaluates them; a row without the column raises a key
      error. */
  function RowWeek(row: Row): (r: Result<(int, int)>)
    ensures r.Success? <==> YearColumn in row && row[YearColumn].Num? && WeekColumn in row && row[WeekColumn].Num?
    ensures r.Success? ==> r.value == (ToInt(row[YearColumn]).value, ToInt(row[WeekColumn]).value)
    ensures r.Failure? ==>
      r.error == if YearColumn !in row then MissingColumn(YearColumn)
                 else if !row[YearColumn].Num? then NotAnInteger
                 else if WeekColumn !in row then MissingColumn(WeekColumn)
                 else NotAnInteger
  {
    var anio :- Field(row, YearColumn);
    var anio :- ToInt(anio);
    var semana :- Field(row, WeekColumn);
    var semana :- ToInt(semana);
    Success((anio, semana))
  }

  /** `row[name]`: a key error when the row has no such column. */
  function Field(row: Row, name: string): (r: Result<Cell>)
    ensures r.Success? <==> name in row
    ensures r.Success? ==> r.value == row[name]
    ensures r.Failure? ==> r.error == MissingColumn(name)
  {
    if name in row then Success(row[name]) else Failure(MissingColumn(name))
  }

  /** The three values `process_row` returns for one row. */
  datatype CalendarFields = CalendarFields(date: int, season: Season, holiday: int)

  /** What `process_row` computes, as a reference: the week's Monday, that
      Monday's season, and the holiday flag of the week. */
  function CalendarOf(row: Row, lookup: int -> Response): Result<CalendarFields> {
    var week :- RowWeek(row);
    var start :- WeekStart(week.0, week.1);
    WeekStartInRange(week.0, week.1);
    var season :- GetSeason(start);
    var dates :- WeekDates(week.0, week.1);
    Success(CalendarFields(start, season, HolidayFlag(dates, lookup)))
  }

  /** The date of a row that `process_row` accepts is the Monday of the
      row's ISO week, and the season is that Monday's. */
  lemma CalendarOfDate(row: Row, lookup: int -> Response)
    requires CalendarOf(row, lookup).Success?
    ensures RowWeek(row).Success?
    ensures var week := RowWeek(row).value;
      var fields := CalendarOf(row, lookup).value;
      && 1 <= fields.date <= MaxOrdinal
      && IsoWeekday(fields.date) == 1
      && IsoCalendar(fields.date) == IsoDate(week.0, week.1, 1)
      && GetSeason(fields.date) == Success(fields.season)
  {
    var week := RowWeek(row).value;
    WeekStartInRange(week.0, week.1);
    WeekStartIsoWeek(week.0, week.1);
  }

  /** The holiday flag of a row that `process_row` accepts is 1 exactly
      when one of the seven days from its Monday on is reported as a
      holiday, and 0 otherwise. */
  lemma CalendarOfHoliday(row: Row, lookup: int -> Response)
    requires CalendarOf(row, lookup).Success?
    ensures RowWeek(row).Success?
    ensures var week := RowWeek(row).value;
      var fields := CalendarOf(row, lookup).value;
      && WeekDates(week.0, week.1).Success?
      && var dates := WeekDates(week.0, week.1).value;
      && dates[0] == fields.date
      && (fields.holiday == 0 || fields.holiday == 1)
      && (fields.holiday == 1 <==> exists i :: 0 <= i < 7 && ReportsHoliday(lookup(dates[i])))
  {
  }

  /** `process_row(row)`, with the holiday service as `lookup`. */
  method ProcessRow(row: Row, lookup: int -> Response) returns (r: Result<CalendarFields>)
    ensures r == CalendarOf(row, lookup)
  {
    var week := RowWeek(row);
    if week.Failure? {
      return Failure(week.error);
    }
    var anio, semana := week.value.0, week.value.1;
    var start := WeekStart(anio, semana);
    if start.Failure? {
      return Failure(start.error);
    }
    WeekStartInRange(anio, semana);
    var season := GetSeason(start.value);
    if season.Failure? {
      return Failure(season.error);
    }
    var holiday, _ := CheckWeekForHoliday(anio, semana, lookup);
    if holiday.Failure? {
      return Failure(holiday.error);
    }
    return Success(CalendarFields(start.value, season.value, holiday.value));
  }

  /** The cells `process_row` puts in the three new columns. */
  function DateCell(fields: CalendarFields): Cell {
    Day(fields.date)
  }

  function SeasonCell(fields: CalendarFields): Cell {
    Text(Label(fields.season))
  }

  function HolidayCell(fields: CalendarFields): Cell {
    Num(fields.holiday as real)
  }

  /** Every row passes `process_row`. */
  predicate AllRowsPass(rows: seq<Row>, lookup: int -> Response) {
    forall k :: 0 <= k < |rows| ==> CalendarOf(rows[k], lookup).Success?
  }

  /** `df.apply(process_row, axis=1)`: run `process_row` on each row in
      order; the first row it rejects stops the run with that row's error. */
  method ProcessRows(rows: seq<Row>, lookup: int -> Response) returns (r: Result<seq<CalendarFields>>)
    ensures r.Success? <==> AllRowsPass(rows, lookup)
    ensures r.Failure? ==>
      exists k :: 0 <= k < |rows| && AllRowsPass(rows[..k], lookup) && CalendarOf(rows[k], lookup) == Failure(r.error)
    ensures r.Success? ==> |r.value| == |rows| && forall k :: 0 <= k < |rows| ==> Success(r.value[k]) == CalendarOf(rows[k], lookup)
  {
    var done: seq<CalendarFields> := [];
    for k := 0 to |rows|
      invariant |done| == k
      invariant forall j :: 0 <= j < k ==> Success(done[j]) == CalendarOf(rows[j], lookup)
    {
      var fields := ProcessRow(rows[k], lookup);
      if fields.Failure? {
        assert AllRowsPass(rows[..k], lookup) by {
          forall j | 0 <= j < k
            ensures CalendarOf(rows[..k][j], lookup).Success?
          {
            assert rows[..k][j] == rows[j];
          }
        }
        return Failure(fields.error);
      }
      done := done + [fields.value];
    }
    return Success(done);
  }

  /** `df[["date", "season", "holiday"]] = df.apply(process_row, axis=1)`:
      the first row that `process_row` rejects makes the whole step fail
      with that row's error; otherwise the three columns are written, and
      every other cell is kept. */
  method AddCalendarColumns(f: Frame, lookup: int -> Response) returns (r: Result<Frame>)
    requires WellFormed(f)
    ensures r.Success? <==> AllRowsPass(f.rows, lookup)
    ensures r.Failure? ==>
      exists k :: 0 <= k < |f.rows| && AllRowsPass(f.rows[..k], lookup) && CalendarOf(f.rows[k], lookup) == Failure(r.error)
    ensures r.Success? ==>
      && WellFormed(r.value)
      && |r.value.rows| == |f.rows|
      && Names(r.value.columns) == Names(f.columns) + {DateColumn, SeasonColumn, HolidayColumn}
      && forall k :: 0 <= k < |f.rows| ==>
        var fields := CalendarOf(f.rows[k], lookup).value;
        r.value.rows[k] == CalendarRow(f.rows[k], DateCell(fields), SeasonCell(fields), HolidayCell(fields))
  {
    var all := ProcessRows(f.rows, lookup);
    if all.Failure? {
      return Failure(all.error);
    }
    var fields := all.value;
    var dates := seq(|fields|, k requires 0 <= k < |fields| => DateCell(fields[k]));
    var seasons := seq(|fields|, k requires 0 <= k < |fields| => SeasonCell(fields[k]));
    var holidays := seq(|fields|, k requires 0 <= k < |fields| => HolidayCell(fields[k]));
    r := Success(WithCalendarColumns(f, dates, seasons, holidays));
    forall k | 0 <= k < |f.rows|
      ensures CalendarOf(f.rows[k], lookup).value == fields[k]
    {
    }
  }

  /** The columns after writing `name`: unchanged when it exists, else
      with `name` appended. */
  function WithColumn(columns: seq<string>, name: string): (r: seq<string>)
    ensures Names(r) == Names(columns) + {name}
    ensures Distinct(columns) ==> Distinct(r)
  {
    if name in columns then columns
    else
      assert Names(columns + [name]) == Names(columns) + {name};
      columns + [name]
  }

  /** One row with its three calendar cells written. */
  function CalendarRow(row: Row, date: Cell, season: Cell, holiday: Cell): Row {
    row[DateColumn := date][SeasonColumn := season][HolidayColumn := holiday]
  }

  /** The written cells, and every other cell as it was. */
  lemma CalendarRowCells(row: Row, date: Cell, season: Cell, holiday: Cell)
    ensures var r := CalendarRow(row, date, season, holiday);
      && r.Keys == row.Keys + {DateColumn, SeasonColumn, HolidayColumn}
      && r[DateColumn] == date && r[SeasonColumn] == season && r[HolidayColumn] == holiday
    ensures forall c :: c in row && c != DateColumn && c != SeasonColumn && c != HolidayColumn ==>
      c in CalendarRow(row, date, season, holiday) && CalendarRow(row, date, season, holiday)[c] == row[c]
  {
  }

  /** Write the three calendar columns, appending those the table lacks. */
  function WithCalendarColumns(f: Frame, dates: seq<Cell>, seasons: seq<Cell>, holidays: seq<Cell>): (r: Frame)
    requires WellFormed(f) && |dates| == |seasons| == |holidays| == |f.rows|
    ensures WellFormed(r) && |r.rows| == |f.rows|
    ensures Names(r.columns) == Names(f.columns) + {DateColumn, SeasonColumn, HolidayColumn}
    ensures forall k :: 0 <= k < |f.rows| ==>
      r.rows[k] == CalendarRow(f.rows[k], dates[k], seasons[k], holidays[k])
  {
    var columns := WithColumn(WithColumn(WithColumn(f.columns, DateColumn), SeasonColumn), HolidayColumn);
    var rows := seq(|f.rows|, k requires 0 <= k < |f.rows| => CalendarRow(f.rows[k], dates[k], seasons[k], holidays[k]));
    assert forall k :: 0 <= k < |rows| ==> rows[k].Keys == Names(columns) by {
      forall k | 0 <= k < |rows|
        ensures rows[k].Keys == Names(columns)
      {
        CalendarRowCells(f.rows[k], dates[k], seasons[k], holidays[k]);
      }
    }
    Frame(columns, rows)
  }

  /** Every row holds `Venta_valor = Venta_piezas * Precio`. */
  predicate SalesConsistent(f: Frame) {
    forall k :: 0 <= k < |f.rows| ==>
      && Units in f.rows[k] && Price in f.rows[k] && SalesValue in f.rows[k]
      && f.rows[k][SalesValue] == Product(f.rows[k][Units], f.rows[k][Price])
  }

  /** `g` has the rows of `f`, in order, with the three sales cells kept. */
  predicate KeepsSales(f: Frame, g: Frame) {
    && |g.rows| == |f.rows|
    && forall k :: 0 <= k < |f.rows| ==>
      && (Units in f.rows[k] ==> Units in g.rows[k] && g.rows[k][Units] == f.rows[k][Units])
      && (Price in f.rows[k] ==> Price in g.rows[k] && g.rows[k][Price] == f.rows[k][Price])
      && (SalesValue in f.rows[k] ==> SalesValue in g.rows[k] && g.rows[k][SalesValue] == f.rows[k][SalesValue])
  }

  lemma KeepsSalesConsistent(f: Frame, g: Frame)
    requires SalesConsistent(f) && KeepsSales(f, g)
    ensures SalesConsistent(g)
  {
  }

  /** The cleaned table is consistent. */
  lemma CleanConsistent(df: Frame)
    requires WellFormed(df) && Clean(df).Success?
    ensures SalesConsistent(Clean(df).value)
  {
    CleanSalesValue(df);
  }

  /** Writing the calendar columns keeps the sales cells. */
  lemma CalendarKeepsSales(f: Frame, g: Frame, lookup: int -> Response)
    requires AllRowsPass(f.rows, lookup) && |g.rows| == |f.rows|
    requires forall k :: 0 <= k < |f.rows| ==>
      var fields := CalendarOf(f.rows[k], lookup).value;
      g.rows[k] == CalendarRow(f.rows[k], DateCell(fields), SeasonCell(fields), HolidayCell(fields))
    ensures KeepsSales(f, g)
  {
    forall k | 0 <= k < |f.rows|
      ensures Units in f.rows[k] ==> Units in g.rows[k] && g.rows[k][Units] == f.rows[k][Units]
      ensures Price in f.rows[k] ==> Price in g.rows[k] && g.rows[k][Price] == f.rows[k][Price]
      ensures SalesValue in f.rows[k] ==> SalesValue in g.rows[k] && g.rows[k][SalesValue] == f.rows[k][SalesValue]
    {
      var fields := CalendarOf(f.rows[k], lookup).value;
      CalendarRowCells(f.rows[k], DateCell(fields), SeasonCell(fields), HolidayCell(fields));
    }
  }

  /** Labelling `Venta_piezas` keeps the sales cells. */
  lemma LabelKeepsSales(f: Frame)
    requires WellFormed(f) && LabelSpecialEvents(f, Units).Success?
    ensures KeepsSales(f, LabelSpecialEvents(f, Units).value)
  {
    var g := LabelSpecialEvents(f, Units).value;
    assert |FlagColumn(Units)| > |Units| && |FlagColumn(Units)| > |Price| && |FlagColumn(Units)| > |SalesValue|;
    forall k | 0 <= k < |f.rows|
      ensures Units in f.rows[k] ==> Units in g.rows[k] && g.rows[k][Units] == f.rows[k][Units]
      ensures Price in f.rows[k] ==> Price in g.rows[k] && g.rows[k][Price] == f.rows[k][Price]
      ensures SalesValue in f.rows[k] ==> SalesValue in g.rows[k] && g.rows[k][SalesValue] == f.rows[k][SalesValue]
    {
    }
  }

  /** Labelling `Venta_piezas` adds its flag column and no other. */
  lemma LabelColumns(f: Frame)
    requires WellFormed(f) && LabelSpecialEvents(f, Units).Success?
    ensures Names(LabelSpecialEvents(f, Units).value.columns) == Names(f.columns) + {FlagColumn(Units)}
  {
    var flag := FlagColumn(Units);
    if flag !in f.columns {
      assert Names(f.columns + [flag]) == Names(f.columns) + {flag};
    }
  }

  /** With unique `NSE` keys the merge keeps the sales cells. */
  lemma MergeKeepsSales(f: Frame, nse: Frame)
    requires WellFormed(f) && WellFormed(nse) && Disjoint(f.columns, nse.columns)
    requires AddFoodSpendingPercentage(f, nse).Success? && UniqueKeys(nse.rows, KeyColumn)
    ensures KeepsSales(f, AddFoodSpendingPercentage(f, nse).value)
  {
    FoodSpendingKeepsRows(f, nse);
  }

  /** The columns after the calendar and label steps are still apart from
      the reference table's. */
  lemma StagesDisjoint(df: Frame, labelled: Frame, nse: Frame)
    requires Disjoint(df.columns + [DateColumn, SeasonColumn, HolidayColumn, FlagColumn(Units)], nse.columns)
    requires Names(labelled.columns) <= Names(df.columns) + {DateColumn, SeasonColumn, HolidayColumn, FlagColumn(Units)}
    ensures Disjoint(labelled.columns, nse.columns)
  {
    var all := df.columns + [DateColumn, SeasonColumn, HolidayColumn, FlagColumn(Units)];
    forall c | c in labelled.columns
      ensures c !in nse.columns
    {
      assert c in Names(labelled.columns);
      assert c in all;
    }
  }

  /** The enrichment steps of `main`, from the raw sales table and the
      socioeconomic reference table to the enriched table: clean, add the
      calendar columns, flag special events in `Venta_piezas`, merge. */
  method Enrich(df: Frame, nse: Frame, lookup: int -> Response) returns (r: Result<Frame>)
    requires WellFormed(df) && WellFormed(nse)
    requires Disjoint(df.columns + [DateColumn, SeasonColumn, HolidayColumn, FlagColumn(Units)], nse.columns)
    ensures Clean(df).Failure? ==> r == Failure(Clean(df).error)
    ensures r.Success? ==> Clean(df).Success? && AllRowsPass(df.rows, lookup)
    ensures r.Success? ==> WellFormed(r.value) && KeyColumn !in r.value.columns && |r.value.rows| >= |df.rows|
    ensures r.Success? && UniqueKeys(nse.rows, KeyColumn) ==> |r.value.rows| == |df.rows| && SalesConsistent(r.value)
  {
    var cleaned :- Clean(df);
    CleanConsistent(df);
    assert cleaned.columns == df.columns;
    var calendar :- AddCalendarColumns(cleaned, lookup);
    CalendarKeepsSales(cleaned, calendar, lookup);
    KeepsSalesConsistent(cleaned, calendar);
    forall k | 0 <= k < |df.rows|
      ensures CalendarOf(df.rows[k], lookup).Success?
    {
      CleanKeepsCalendarInputs(df, k, lookup);
    }
    var labelled :- LabelSpecialEvents(calendar, Units);
    LabelKeepsSales(calendar);
    LabelColumns(calendar);
    KeepsSalesConsistent(calendar, labelled);
    StagesDisjoint(df, labelled, nse);
    r := AddFoodSpendingPercentage(labelled, nse);
    if r.Success? && UniqueKeys(nse.rows, KeyColumn) {
      MergeKeepsSales(labelled, nse);
      KeepsSalesConsistent(labelled, r.value);
    }
  }

  /** Cleaning leaves `Anio` and `Semana` alone, so a row passes
      `process_row` after cleaning exactly when it did before. */
  lemma CleanKeepsCalendarInputs(df: Frame, k: int, lookup: int -> Response)
    requires WellFormed(df) && Clean(df).Success? && 0 <= k < |df.rows|
    ensures |Clean(df).value.rows| == |df.rows|
    ensures CalendarOf(Clean(df).value.rows[k], lookup) == CalendarOf(df.rows[k], lookup)
  {
    CleanKeeps(df);
    var row := Clean(df).value.rows[k];
    assert RowWeek(row) == RowWeek(df.rows[k]);
  }
}

=== FILE: quantiles.dfy ===
/** Sorting and the linear-interpolation quantile that `Series.quantile`
    uses by default, over exact reals. */
module Quantiles {

  predicate Sorted(s: seq<real>) {
    forall i, j :: 0 <= i < j < |s| ==> s[i] <= s[j]
  }

  /** Insert `x` into a sorted sequence, before the first larger element. */
  function Insert(x: real, s: seq<real>): (r: seq<real>)
    requires Sorted(s)
    ensures Sorted(r)
    ensures multiset(r) == multiset(s) + multiset{x}
    ensures |r| == |s| + 1
    ensures r[0] == if |s| == 0 || x <= s[0] then x else s[0]
  {
    if |s| == 0 then [x]
    else if x <= s[0] then [x] + s
    else
      var rest := Insert(x, s[1..]);
      assert s == [s[0]] + s[1..];
      assert s[0] <= rest[0];
      [s[0]] + rest
  }

  /** The values in ascending order: a sorted permutation. */
  function Sort(s: seq<real>): (r: seq<real>)
    ensures Sorted(r)
    ensures multiset(r) == multiset(s)
    ensures |r| == |s|
  {
    if |s| == 0 then []
    else
      assert s == [s[0]] + s[1..];
      Insert(s[0], Sort(s[1..]))
  }

  lemma SortedTail(s: seq<real>)
    requires Sorted(s) && |s| > 0
    ensures Sorted(s[1..])
  {
  }

  /** The head of a sorted sequence is its smallest element. */
  lemma SortedHeadIsLeast(s: seq<real>, x: real)
    requires Sorted(s) && x in multiset(s)
    ensures s[0] <= x
  {
    var i :| 0 <= i < |s| && s[i] == x;
  }

  /** Two sorted sequences with the same elements start alike. */
  lemma SortedSameHead(a: seq<real>, b: seq<real>)
    requires Sorted(a) && Sorted(b) && multiset(a) == multiset(b) && |a| > 0
    ensures |b| > 0 && a[0] == b[0]
  {
    assert a[0] in multiset(a);
    assert a[0] in multiset(b);
    SortedHeadIsLeast(b, a[0]);
    assert b[0] in multiset(a);
    SortedHeadIsLeast(a, b[0]);
  }

  lemma TailMultiset(s: seq<real>)
    requires |s| > 0
    ensures multiset(s[1..]) == multiset(s) - multiset{s[0]}
  {
    assert s == [s[0]] + s[1..];
  }

  /** A sorted sequence is determined by its multiset of elements, so the
      order in which the values were found does not matter. */
  lemma {:induction false} SortedUnique(a: seq<real>, b: seq<real>)
    requires Sorted(a) && Sorted(b) && multiset(a) == multiset(b)
    ensures a == b
    decreases |a|
  {
    if |a| == 0 {
      assert |multiset(b)| == 0;
    } else {
      SortedSameHead(a, b);
      TailMultiset(a);
      TailMultiset(b);
      SortedTail(a);
      SortedTail(b);
      SortedUnique(a[1..], b[1..]);
      assert a == [a[0]] + a[1..];
      assert b == [b[0]] + b[1..];
    }
  }

  /** Sorting two arrangements of the same values gives the same sequence. */
  lemma SortPermutationInvariant(a: seq<real>, b: seq<real>)
    requires multiset(a) == multiset(b)
    ensures Sort(a) == Sort(b)
  {
    SortedUnique(Sort(a), Sort(b));
  }

  lemma MulNonneg(x: real, y: real)
    requires x >= 0.0 && y >= 0.0
    ensures x * y >= 0.0
  {
  }

  /** `0 <= n * p <= n` for a probability `p`. */
  lemma ScaleProbability(n: real, p: real)
    requires n >= 0.0 && 0.0 <= p <= 1.0
    ensures 0.0 <= n * p <= n
  {
    MulNonneg(n, p);
    MulNonneg(n, 1.0 - p);
    assert n * (1.0 - p) == n - n * p;
  }

  /** Linear interpolation stays between its two end points. */
  lemma Interpolate(a: real, b: real, t: real)
    requires a <= b && 0.0 <= t <= 1.0
    ensures a <= Lerp(a, b, t) <= b
  {
    MulNonneg(t, b - a);
    MulNonneg(1.0 - t, b - a);
    assert (1.0 - t) * (b - a) == (b - a) - t * (b - a);
  }

  /** The fractional position `h = (n - 1) * p` of the quantile at `p`
      among `n` sorted elements. */
  function Rank(n: nat, p: real): (h: real)
    requires n > 0 && 0.0 <= p <= 1.0
    ensures 0.0 <= h <= (n - 1) as real
    ensures 0 <= h.Floor <= n - 1
  {
    var width := (n - 1) as real;
    ScaleProbability(width, p);
    FloorBounds(width * p, n - 1);
    width * p
  }

  lemma FloorBounds(h: real, m: int)
    requires 0.0 <= h <= m as real
    ensures 0 <= h.Floor <= m
  {
  }

  /** A higher probability has a higher rank. */
  lemma RankMonotone(n: nat, p1: real, p2: real)
    requires n > 0 && 0.0 <= p1 <= p2 <= 1.0
    ensures Rank(n, p1) <= Rank(n, p2)
    ensures Rank(n, p1).Floor <= Rank(n, p2).Floor
  {
    var width := (n - 1) as real;
    MulNonneg(width, p2 - p1);
    assert width * (p2 - p1) == width * p2 - width * p1;
    assert Rank(n, p1) == width * p1;
    assert Rank(n, p2) == width * p2;
  }

  /** The quantile at `p` of a sorted, non-empty sequence: interpolate
      linearly between the elements at `floor(h)` and `floor(h) + 1`. */
  function Quantile(s: seq<real>, p: real): (q: real)
    requires Sorted(s) && |s| > 0 && 0.0 <= p <= 1.0
  {
    var h := Rank(|s|, p);
    var lo := h.Floor;
    if lo == |s| - 1 then s[lo]
    else Lerp(s[lo], s[lo + 1], h - lo as real)
  }

  /** The point a fraction `t` of the way from `a` to `b`. */
  function Lerp(a: real, b: real, t: real): real {
    a + t * (b - a)
  }

  /** Moving further along the segment never goes back. */
  lemma LerpMonotone(a: real, b: real, t1: real, t2: real)
    requires a <= b && t1 <= t2
    ensures Lerp(a, b, t1) <= Lerp(a, b, t2)
  {
    ScaleMonotone(b - a, t1, t2);
  }

  /** The quantile lies between the two elements it interpolates, and so
      between the smallest and the largest element. */
  lemma QuantileBetween(s: seq<real>, p: real)
    requires Sorted(s) && |s| > 0 && 0.0 <= p <= 1.0
    ensures var lo := Rank(|s|, p).Floor;
      s[lo] <= Quantile(s, p) <= s[if lo == |s| - 1 then lo else lo + 1]
    ensures s[0] <= Quantile(s, p) <= s[|s| - 1]
  {
    var h := Rank(|s|, p);
    var lo := h.Floor;
    if lo < |s| - 1 {
      assert s[lo] <= s[lo + 1];
      Interpolate(s[lo], s[lo + 1], h - lo as real);
    }
  }

  /** Within one interpolation segment the quantile grows with the rank. */
  lemma SameSegment(s: seq<real>, p1: real, p2: real)
    requires Sorted(s) && |s| > 0 && 0.0 <= p1 <= p2 <= 1.0
    requires Rank(|s|, p1).Floor == Rank(|s|, p2).Floor
    ensures Quantile(s, p1) <= Quantile(s, p2)
  {
    RankMonotone(|s|, p1, p2);
    var h1 := Rank(|s|, p1);
    var h2 := Rank(|s|, p2);
    var lo := h1.Floor;
    if lo < |s| - 1 {
      assert s[lo] <= s[lo + 1];
      LerpMonotone(s[lo], s[lo + 1], h1 - lo as real, h2 - lo as real);
    } else {
      assert Quantile(s, p1) == s[lo] == Quantile(s, p2);
    }
  }

  /** A higher probability never gives a lower quantile. */
  lemma QuantileMonotone(s: seq<real>, p1: real, p2: real)
    requires Sorted(s) && |s| > 0 && 0.0 <= p1 <= p2 <= 1.0
    ensures Quantile(s, p1) <= Quantile(s, p2)
  {
    RankMonotone(|s|, p1, p2);
    var lo1 := Rank(|s|, p1).Floor;
    var lo2 := Rank(|s|, p2).Floor;
    if lo1 < lo2 {
      QuantileBetween(s, p1);
      QuantileBetween(s, p2);
      assert s[lo1 + 1] <= s[lo2];
    } else {
      SameSegment(s, p1, p2);
    }
  }

  lemma ScaleMonotone(g: real, a: real, b: real)
    requires g >= 0.0 && a <= b
    ensures a * g <= b * g
  {
    MulNonneg(b - a, g);
    assert (b - a) * g == b * g - a * g;
  }

  /** Multiplying by a positive factor keeps the order of two numbers,
      strict or not, in both directions. */
  lemma PositiveScaleOrder(k: real, a: real, b: real)
    requires k > 0.0
    ensures a <= b <==> k * a <= k * b
    ensures a < b <==> k * a < k * b
  {
    if a <= b {
      ScaleMonotone(k, a, b);
    } else {
      ScaleMonotone(k, b, a);
      assert (a - b) * k > 0.0;
      assert (a - b) * k == k * a - k * b;
    }
    if a < b {
      assert (b - a) * k > 0.0;
      assert (b - a) * k == k * b - k * a;
    } else {
      ScaleMonotone(k, b, a);
    }
  }

  /** `f` keeps the order of any two numbers, in both directions: a change
      of unit such as a positive factor. */
  ghost predicate OrderPreserving(f: real -> real) {
    forall a, b :: a <= b <==> f(a) <= f(b)
  }

  /** Multiplication by `k`, as a map on numbers. */
  function Times(k: real): real -> real {
    x => k * x
  }

  /** A positive factor is a change of unit. */
  lemma TimesOrderPreserving(k: real)
    requires k > 0.0
    ensures OrderPreserving(Times(k))
  {
    forall a, b
      ensures a <= b <==> Times(k)(a) <= Times(k)(b)
    {
      PositiveScaleOrder(k, a, b);
    }
  }

  /** Every element sent through `f`. */
  function Mapped(s: seq<real>, f: real -> real): (r: seq<real>)
    ensures |r| == |s|
    ensures forall i :: 0 <= i < |s| ==> r[i] == f(s[i])
  {
    seq(|s|, i requires 0 <= i < |s| => f(s[i]))
  }

  /** An order-preserving map keeps a sorted sequence sorted. */
  lemma MappedSorted(s: seq<real>, f: real -> real)
    requires Sorted(s) && OrderPreserving(f)
    ensures Sorted(Mapped(s, f))
  {
  }

  /** Mapping a sequence maps its head and its tail separately. */
  lemma MappedCons(x: real, s: seq<real>, f: real -> real)
    ensures Mapped([x] + s, f) == [f(x)] + Mapped(s, f)
  {
    var a := Mapped([x] + s, f);
    var b := [f(x)] + Mapped(s, f);
    forall i | 0 <= i < |a|
      ensures a[i] == b[i]
    {
      if i > 0 {
        assert ([x] + s)[i] == s[i - 1];
      }
    }
  }

  lemma MappedTail(s: seq<real>, f: real -> real)
    requires |s| > 0
    ensures Mapped(s, f)[0] == f(s[0])
    ensures Mapped(s, f)[1..] == Mapped(s[1..], f)
  {
    var a := Mapped(s, f)[1..];
    var b := Mapped(s[1..], f);
    forall i | 0 <= i < |a|
      ensures a[i] == b[i]
    {
    }
  }

  /** Inserting the mapped value into the mapped sequence maps the
      insertion. */
  lemma {:induction false} InsertMapped(x: real, s: seq<real>, f: real -> real)
    requires Sorted(s) && OrderPreserving(f)
    ensures Sorted(Mapped(s, f)) && Insert(f(x), Mapped(s, f)) == Mapped(Insert(x, s), f)
  {
    MappedSorted(s, f);
    if |s| == 0 {
      var a := Mapped([x], f);
      assert a == [a[0]];
    } else {
      MappedTail(s, f);
      if x <= s[0] {
        MappedCons(x, s, f);
      } else {
        SortedTail(s);
        InsertMapped(x, s[1..], f);
        MappedCons(s[0], Insert(x, s[1..]), f);
      }
    }
  }

  /** Sorting commutes with a change of unit. */
  lemma {:induction false} SortMapped(s: seq<real>, f: real -> real)
    requires OrderPreserving(f)
    ensures Sort(Mapped(s, f)) == Mapped(Sort(s), f)
  {
    if |s| > 0 {
      MappedTail(s, f);
      SortMapped(s[1..], f);
      InsertMapped(s[0], Sort(s[1..]), f);
    }
  }

  /** Interpolating between scaled end points scales the interpolation. */
  lemma LerpScaled(a: real, b: real, t: real, k: real)
    ensures Lerp(k * a, k * b, t) == k * Lerp(a, b, t)
  {
    assert k * b - k * a == k * (b - a);
    assert t * (k * (b - a)) == k * (t * (b - a));
    assert k * (a + t * (b - a)) == k * a + k * (t * (b - a));
  }

  /** `f` commutes with linear interpolation: a map of the form
      `x => k * x + c`. */
  ghost predicate Affine(f: real -> real) {
    forall a, b, t :: f(Lerp(a, b, t)) == Lerp(f(a), f(b), t)
  }

  /** Multiplication by a constant is affine. */
  lemma TimesAffine(k: real)
    ensures Affine(Times(k))
  {
    forall a, b, t
      ensures Times(k)(Lerp(a, b, t)) == Lerp(Times(k)(a), Times(k)(b), t)
    {
      LerpScaled(a, b, t, k);
    }
  }

  /** The quantile of the values in another unit is the quantile in that
      unit: the rank depends only on how many values there are, and the
      interpolation commutes with the change of unit. */
  lemma QuantileMapped(s: seq<real>, p: real, f: real -> real)
    requires Sorted(s) && |s| > 0 && 0.0 <= p <= 1.0 && OrderPreserving(f) && Affine(f)
    ensures Sorted(Mapped(s, f)) && Quantile(Mapped(s, f), p) == f(Quantile(s, p))
  {
    MappedSorted(s, f);
    var lo := Rank(|s|, p).Floor;
    if lo < |s| - 1 {
      var t := Rank(|s|, p) - lo as real;
      assert f(Lerp(s[lo], s[lo + 1], t)) == Lerp(f(s[lo]), f(s[lo + 1]), t);
    }
  }
}

=== FILE: results.dfy ===
/** Failure-carrying results for the enrichment stage.

    The script has no error handling of its own: every failure is an
    exception raised by the date parser, by pandas, or by `int()`.  Each such
    exception becomes a `Failure` carrying the reason. */
module Results {

  /** Why an enrichment step raised instead of returning. */
  datatype Error =
    | BadYearText       // "%G" did not match four digits
    | BadWeekText       // "%V" did not match 0..53
    | WeekOutOfRange    // the ISO year has no such week
    | DateOverflow      // a date beyond 9999-12-31
    | NotAnInteger      // `int()` of a missing or non-numeric cell
    | MissingColumn(name: string)
    | NotNumeric(name: string)
    | KeyTypeMismatch   // merge keys of text on one side, numbers on the other

  datatype Option<+T> = None | Some(value: T)

  datatype Result<+T> = Success(value: T) | Failure(error: Error) {

    predicate IsFailure() {
      Failure?
    }

    function PropagateFailure<U>(): Result<U>
      requires Failure?
    {
      Failure(error)
    }

    function Extract(): T
      requires Success?
    {
      value
    }
  }
}

=== FILE: season.dfy ===
/** `get_season`: the season label of a date, by fixed calendar bands. */
module Seasons {
  import opened Results
  import opened Calendar

  datatype Season = Invierno | Primavera | Verano | Otono | SinEstacion

  /** The text the enriched dataset stores for each season. */
  function Label(s: Season): string {
    match s
    case Invierno => "Invierno"
    case Primavera => "Primavera"
    case Verano => "Verano"
    case Otono => "Otoño"
    case SinEstacion => "Sin estacion"
  }

  /** `(m, d)` falls on or after `(m0, d0)` in the calendar order. */
  predicate OnOrAfter(m: int, d: int, m0: int, d0: int) {
    m > m0 || (m == m0 && d >= d0)
  }

  /** The season the source's four range tests give to month `m`, day `d`,
      stated on (month, day) pairs alone; each band is inclusive at both
      ends, and the winter band only covers 21 to 31 December, because its
      lower bound is 21 December of the date's own year. */
  function SeasonOfMonthDay(m: int, d: int): Season {
    if OnOrAfter(m, d, 12, 21) then Invierno
    else if OnOrAfter(m, d, 3, 20) && !OnOrAfter(m, d, 6, 21) then Primavera
    else if OnOrAfter(m, d, 6, 21) && !OnOrAfter(m, d, 9, 23) then Verano
    else if OnOrAfter(m, d, 9, 23) && !OnOrAfter(m, d, 12, 21) then Otono
    else SinEstacion
  }

  /** `get_season(date)` for the date with ordinal `n`.  Its winter test
      builds `date(year + 1, 3, 19)` only once `date(year, 12, 21) <= date`
      holds, and that constructor raises for year 10000. */
  function GetSeason(n: int): (r: Result<Season>)
    requires 1 <= n <= MaxOrdinal
  {
    var year := YearOf(n);
    if Ordinal(year, 12, 21) <= n then
      if year + 1 > 9999 then Failure(DateOverflow)
      else if n <= Ordinal(year + 1, 3, 19) then Success(Invierno)
      else SeasonAfterWinter(n, year)
    else SeasonAfterWinter(n, year)
  }

  /** The three tests `get_season` runs once the winter test has failed. */
  function SeasonAfterWinter(n: int, year: int): Result<Season> {
    if Ordinal(year, 3, 20) <= n <= Ordinal(year, 6, 20) then Success(Primavera)
    else if Ordinal(year, 6, 21) <= n <= Ordinal(year, 9, 22) then Success(Verano)
    else if Ordinal(year, 9, 23) <= n <= Ordinal(year, 12, 20) then Success(Otono)
    else Success(SinEstacion)
  }

  /** The ordinal tests of `get_season` on a date of year `y`, restated as
      (month, day) comparisons. */
  lemma {:induction false} BandTests(y: int, m: int, d: int)
    requires ValidDate(y, m, d)
    ensures YearOf(Ordinal(y, m, d)) == y
    ensures Ordinal(y, 12, 21) <= Ordinal(y, m, d) <==> OnOrAfter(m, d, 12, 21)
    ensures Ordinal(y, m, d) <= Ordinal(y + 1, 3, 19)
    ensures Ordinal(y, 3, 20) <= Ordinal(y, m, d) <==> OnOrAfter(m, d, 3, 20)
    ensures Ordinal(y, m, d) <= Ordinal(y, 6, 20) <==> !OnOrAfter(m, d, 6, 21)
    ensures Ordinal(y, 6, 21) <= Ordinal(y, m, d) <==> OnOrAfter(m, d, 6, 21)
    ensures Ordinal(y, m, d) <= Ordinal(y, 9, 22) <==> !OnOrAfter(m, d, 9, 23)
    ensures Ordinal(y, 9, 23) <= Ordinal(y, m, d) <==> OnOrAfter(m, d, 9, 23)
    ensures Ordinal(y, m, d) <= Ordinal(y, 12, 20) <==> !OnOrAfter(m, d, 12, 21)
  {
    YearOfDate(y, m, d);
    DateWithinYear(y, m, d);
    OrdinalOrder(y, 12, 21, m, d);
    OrdinalOrder(y, 3, 20, m, d);
    OrdinalOrder(y, m, d, 6, 20);
    OrdinalOrder(y, 6, 21, m, d);
    OrdinalOrder(y, m, d, 9, 22);
    OrdinalOrder(y, 9, 23, m, d);
    OrdinalOrder(y, m, d, 12, 20);
    assert Ordinal(y + 1, 3, 19) > DaysBeforeYear(y + 1);
  }

  /** The ordinal of every representable date lies in the date type's range. */
  lemma OrdinalInRange(y: int, m: int, d: int)
    requires ValidDate(y, m, d) && 1 <= y <= 9999
    ensures 1 <= Ordinal(y, m, d) <= MaxOrdinal
  {
    DateWithinYear(y, m, d);
    assert DaysBeforeYear(1) == 0;
    if 1 < y {
      DaysBeforeYearStrictlyIncreasing(1, y);
    }
    if y < 9999 {
      DaysBeforeYearStrictlyIncreasing(y + 1, 10000);
    }
    assert DaysBeforeYear(10000) == MaxOrdinal;
  }

  /** `get_season` on the date (y, m, d) agrees with the (month, day) bands,
      except that a date from 21 December 9999 on raises. */
  lemma {:induction false} GetSeasonOfDate(y: int, m: int, d: int)
    requires ValidDate(y, m, d) && 1 <= y <= 9999
    ensures 1 <= Ordinal(y, m, d) <= MaxOrdinal
    ensures GetSeason(Ordinal(y, m, d))
         == if y == 9999 && OnOrAfter(m, d, 12, 21) then Failure(DateOverflow)
            else Success(SeasonOfMonthDay(m, d))
  {
    OrdinalInRange(y, m, d);
    BandTests(y, m, d);
  }

  /** The bands of `get_season`, each in both directions: the four seasons
      cover 20 March to 31 December with every boundary date in the later
      season, and 1 January to 19 March matches no band. */
  lemma {:induction false} SeasonBands(y: int, m: int, d: int)
    requires ValidDate(y, m, d) && 1 <= y < 9999
    ensures GetSeason(Ordinal(y, m, d)) == Success(Invierno) <==> OnOrAfter(m, d, 12, 21)
    ensures GetSeason(Ordinal(y, m, d)) == Success(Primavera) <==> OnOrAfter(m, d, 3, 20) && !OnOrAfter(m, d, 6, 21)
    ensures GetSeason(Ordinal(y, m, d)) == Success(Verano) <==> OnOrAfter(m, d, 6, 21) && !OnOrAfter(m, d, 9, 23)
    ensures GetSeason(Ordinal(y, m, d)) == Success(Otono) <==> OnOrAfter(m, d, 9, 23) && !OnOrAfter(m, d, 12, 21)
    ensures GetSeason(Ordinal(y, m, d)) == Success(SinEstacion) <==> !OnOrAfter(m, d, 3, 20)
  {
    GetSeasonOfDate(y, m, d);
  }

  /** The bands `get_season` evidently means: its winter test reaches up to
      19 March of the following year, so winter runs from 21 December across
      the new year to 19 March.  The repaired winter test compares the date
      with 21 December and with 19 March of its own year, and needs no date
      of the next year. */
  function IntendedSeason(n: int): Season
    requires 1 <= n <= MaxOrdinal
  {
    var year := YearOf(n);
    if Ordinal(year, 12, 21) <= n || n <= Ordinal(year, 3, 19) then Invierno
    else SeasonAfterWinter(n, year).value
  }

  /** The intended bands on the date (y, m, d): winter exactly from 21
      December to 19 March, every date has a season, and outside 1 January
      to 19 March the label is the one `get_season` gives, wherever that
      does not raise. */
  lemma {:induction false} IntendedSeasonOfDate(y: int, m: int, d: int)
    requires ValidDate(y, m, d) && 1 <= y <= 9999
    ensures 1 <= Ordinal(y, m, d) <= MaxOrdinal
    ensures IntendedSeason(Ordinal(y, m, d)) != SinEstacion
    ensures IntendedSeason(Ordinal(y, m, d)) == Invierno <==> OnOrAfter(m, d, 12, 21) || !OnOrAfter(m, d, 3, 20)
    ensures OnOrAfter(m, d, 3, 20) && !(y == 9999 && OnOrAfter(m, d, 12, 21)) ==>
      GetSeason(Ordinal(y, m, d)) == Success(IntendedSeason(Ordinal(y, m, d)))
  {
    GetSeasonOfDate(y, m, d);
    BandTests(y, m, d);
    OrdinalOrder(y, m, d, 3, 19);
  }

  /** A date the source's winter test misses: 15 January 2023 is labelled
      "Sin estacion" as written, and winter under the intended bands. */
  lemma MidJanuaryHasNoSeason()
    ensures ValidDate(2023, 1, 15) && 1 <= Ordinal(2023, 1, 15) <= MaxOrdinal
    ensures GetSeason(Ordinal(2023, 1, 15)) == Success(SinEstacion)
    ensures IntendedSeason(Ordinal(2023, 1, 15)) == Invierno
  {
    assert ValidDate(2023, 1, 15);
    SeasonBands(2023, 1, 15);
    IntendedSeasonOfDate(2023, 1, 15);
  }
}

=== FILE: weeks.dfy ===
/** The week anchor of a sales row: the Monday that
    `datetime.strptime(f"{anio} {semana} 1", "%G %V %u")` parses, and the
    seven dates of that week that the holiday check visits. */
module Weeks {
  import opened Results
  import opened Calendar

  /** `strptime(f"{anio} {semana} 1", "%G %V %u").date()` as an ordinal.
      "%G" only matches four digits, "%V" only matches 0 to 53, and the
      parser then builds the date with `date.fromisocalendar`, which rejects
      week 0 and a week 53 the ISO year does not have. */
  function WeekStart(anio: int, semana: int): (r: Result<int>)
    ensures r.Success? <==> 1000 <= anio <= 9999 && 1 <= semana <= WeeksInYear(anio)
    ensures r.Failure? ==> r.error == BadYearText || r.error == BadWeekText || r.error == WeekOutOfRange
  {
    if !(1000 <= anio <= 9999) then Failure(BadYearText)
    else if !(0 <= semana <= 53) then Failure(BadWeekText)
    else if !(1 <= semana <= WeeksInYear(anio)) then Failure(WeekOutOfRange)
    else Success(FromIsoWeek(anio, semana, 1))
  }

  /** The parsed date is the Monday of the requested ISO week: its ISO
      calendar gives back the year and week it was parsed from. */
  lemma WeekStartIsoWeek(anio: int, semana: int)
    requires WeekStart(anio, semana).Success?
    ensures IsoCalendar(WeekStart(anio, semana).value) == IsoDate(anio, semana, 1)
    ensures IsoWeekday(WeekStart(anio, semana).value) == 1
  {
    IsoCalendarOfWeekDay(anio, semana, 1);
    IsoCalendarWeekday(WeekStart(anio, semana).value);
  }

  /** Every Monday that parses is a date `datetime` can represent, at least
      three days before 9999-12-31. */
  lemma WeekStartInRange(anio: int, semana: int)
    requires WeekStart(anio, semana).Success?
    ensures 1 <= WeekStart(anio, semana).value && WeekStart(anio, semana).value + 3 <= MaxOrdinal
  {
    var start := WeekStart(anio, semana).value;
    WeeksInYearSpan(anio);
    assert start <= IsoWeek1Monday(anio + 1) - 7;
    if anio + 1 < 10000 {
      DaysBeforeYearStrictlyIncreasing(anio + 1, 10000);
    }
    assert Jan1(10000) == MaxOrdinal + 1;
    DaysBeforeYearStrictlyIncreasing(1, anio);
    assert DaysBeforeYear(1) == 0;
  }

  /** Every day of a valid ISO week carries that week's ISO year and number. */
  lemma WeekIsoDates(y: int, w: int)
    requires 1 <= w <= WeeksInYear(y)
    ensures forall d :: 1 <= d <= 7 ==> IsoCalendar(FromIsoWeek(y, w, d)) == IsoDate(y, w, d)
  {
    forall d | 1 <= d <= 7
      ensures IsoCalendar(FromIsoWeek(y, w, d)) == IsoDate(y, w, d)
    {
      IsoCalendarOfWeekDay(y, w, d);
    }
  }

  /** `week_dates`: the Monday of the week and the six days after it.
      Adding a day past 9999-12-31 raises, which only the last ISO week of
      year 9999 reaches. */
  function WeekDates(anio: int, semana: int): (r: Result<seq<int>>)
    ensures r.Success? <==> WeekStart(anio, semana).Success? && WeekStart(anio, semana).value + 6 <= MaxOrdinal
    ensures r.Success? ==> |r.value| == 7 && r.value[0] == WeekStart(anio, semana).value
    ensures r.Success? ==> forall i :: 0 <= i < |r.value| ==> r.value[i] == r.value[0] + i
  {
    var start :- WeekStart(anio, semana);
    if start + 6 > MaxOrdinal then Failure(DateOverflow)
    else Success(seq(7, i => start + i))
  }

  /** Each of the seven dates lies in the requested ISO week, on weekdays
      Monday to Sunday in order. */
  lemma WeekDatesInWeek(anio: int, semana: int)
    requires WeekDates(anio, semana).Success?
    ensures forall i :: 0 <= i < |WeekDates(anio, semana).value| ==>
      IsoCalendar(WeekDates(anio, semana).value[i]) == IsoDate(anio, semana, i + 1)
  {
    var dates := WeekDates(anio, semana).value;
    WeekIsoDates(anio, semana);
    forall i | 0 <= i < |dates|
      ensures IsoCalendar(dates[i]) == IsoDate(anio, semana, i + 1)
    {
      assert dates[i] == FromIsoWeek(anio, semana, i + 1);
    }
  }

  /** The Monday of the next week of the same ISO year is seven days later. */
  lemma NextWeekStart(anio: int, semana: int)
    requires WeekStart(anio, semana).Success? && semana < WeeksInYear(anio)
    ensures WeekStart(anio, semana + 1) == Success(WeekStart(anio, semana).value + 7)
  {
    assert WeekStart(anio, semana).value == FromIsoWeek(anio, semana, 1);
    assert WeekStart(anio, semana + 1).value == FromIsoWeek(anio, semana + 1, 1);
  }

  /** Across the turn of the ISO year, week 1 still starts seven days after
      the last week of the year before. */
  lemma {:induction false} NextYearWeekStart(anio: int)
    requires 1000 <= anio < 9999
    ensures WeekStart(anio + 1, 1) == Success(WeekStart(anio, WeeksInYear(anio)).value + 7)
  {
    var last := WeeksInYear(anio);
    assert WeekStart(anio, last).value == FromIsoWeek(anio, last, 1);
    assert WeekStart(anio + 1, 1).value == FromIsoWeek(anio + 1, 1, 1);
    WeeksInYearSpan(anio);
  }
}
